=== FILE: README.md ===
# kaldi.js session and Alexa grammar generator, modelled in Dafny

This project models two sequential pieces of the kaldi.js repository and
proves properties of them.

**The streaming session of `kaldi-js.cc`** is the `Asr` object behind
`handle_message`. It covers:
- the fixed-capacity chunk that resampled audio is copied into;
- `Asr::DecodeChunk`, with its `total_length` count and its one-second
  output cadence on `last_output`;
- endpoint-triggered finalization, which posts one transcript and disables
  audio;
- `Asr::ResetDecoder`;
- the chunk-size clamp in `init`;
- `GetBestTranscript`.

The session is an immutable record (`AsrSession.Session`). The Kaldi engine
is an oracle passed in with each message (`AsrSession.Oracle`). The oracle
supplies:
- the endpoint answer at each cadence check, indexed by `total_length`;
- the final relative cost;
- the best path: frames decoded, lattice states and word ids.

The samples handed to the engine and the payloads posted to the page are
kept in two logs, `fed` and `posted`. Only the proofs read them.

**The grammar-FST generator of `alexa_fst.py`** is the word-id allocation
and the arc-generation loop of `main`. It turns a words.txt vocabulary, the
slot types and the intents into two things:
- the text lines of a weighted FST: arcs `src dst ilabel olabel weight`,
  plus one final state;
- the extended vocabulary.

`AlexaGrammar.Generate` threads the vocabulary, the word-id counter, the
state counter and the lines through the intents, utterances, tokens and
slot values. Each Python exception is an error value.

The invariant `AlexaGrammar.WellFormed` holds after every step:
- Line 0 is the initial state's `<unk>:[restart]` self-loop.
- Line 1 is the final state 1, with weight 0.
- Every later line is a weight-0 arc between allocated states.
- Every state from 2 on is joined to the initial state by exactly one line.
  That line is either its `<unk>:[restart]` escape or its intent's
  `<eps>:[intent]` entry arc.

Acceptance is stated as language inclusion (`AlexaGrammar.GrammarAccepts`):
every reading of every utterance of intent `k` labels a path from the
initial state to the final state, behind that intent's entry arc. A reading
uses the vocabulary in force while the intent is compiled. A plain token is
read as its id, or `<unk>` when unknown. A `{slot}` token is read as the
tokens of any one value of its type.

Quirks of the code are modelled as written:
- Cancel (`ResetDecoder`) clears the chunk, `last_output` and both flags
  but keeps `total_length` (kaldi-js.cc:257-271 against kaldi-js.cc:330).
  So after a Cancel, once more than a second has been decoded in all, the
  first chunk always runs the cadence branch (`Protocol.CadenceAfterCancel`).
- Start sets only `enabled` and leaves `endpoint_detected` set. After a
  finalized utterance, no audio is taken until Cancel or Init: Start then
  Audio hands the engine nothing and posts the transcript again
  (`Protocol.RestartReposts`, `Protocol.EndpointLatches`).
- Init with other than two positional arguments (kaldi-js.cc:176-179)
  leaves a fresh `Asr` without decoder (`Protocol.Worker.Unloaded`):
  - Start sets its `enabled` flag.
  - Audio while enabled, and any Cancel, dereference the missing engine
    objects (`Fault.MissingDecoder`).
  - Audio while disabled returns early.
- Start, Audio or Cancel before the first Init reaches a null `asr`
  (`Fault.NullAsr`). A message that does not parse, or that has none of the
  four fields, is only logged and changes nothing, before Init or after.
- Only a truncated chunk size of 0 is raised to 1 (kaldi-js.cc:229-232). A
  negative one (a negative `--chunk-length`) fails the buffer resize
  (`Fault.BadChunkLength`). The option text's "<= 0 uses all input in one
  chunk" is not implemented by the code.

## Model

| member | source | states |
|---|---|---|
| AsrSession.DecodeChunk | kaldi-js.cc:328-369 | The chunk's samples are appended to the engine log in order and the chunk empties; total_length grows by exactly the samples handed over. When more than one rate of samples has passed since the last tick, last_output advances by exactly one rate and stays below total_length, and endpoint_detected takes the engine's answer. Otherwise neither changes. The counter invariant is kept. |
| AsrSession.CopyStep | kaldi-js.cc:290-300 | One pass of the copy loop keeps the session invariant, consumes at least one sample, decodes at most once (exactly once if samples remain), and loses or duplicates no sample: fed + chunk + unread is unchanged. |
| AsrSession.Fill | kaldi-js.cc:288-301 | The copy loop keeps 0 <= chunk_valid < capacity. It stops with samples left only when an endpoint was detected, and does nothing once one is latched. The engine log grows by decodes × capacity. The stream fed + chunk + unread is preserved. |
| AsrSession.FillTakesPrefix | kaldi-js.cc:288-301 | What the loop takes is a prefix of the message and what it leaves is the rest: the engine and the buffer receive the message in order. |
| AsrSession.FillWithoutEndpoint | kaldi-js.cc:288-301 | Without an endpoint, every sample is taken. The loop decodes exactly (chunk_valid + n) div capacity times and leaves (chunk_valid + n) mod capacity samples buffered. The engine receives exactly the first decodes × capacity samples of chunk + message. |
| AsrSession.FillStopsAtEndpoint | kaldi-js.cc:289-301 | When the endpoint fires, the loop stops at a chunk boundary: the buffer is empty, and the engine has received exactly the samples taken; the rest of the message never reaches it. |
| AsrSession.FillIsStream | kaldi-js.cc:288-301 | The block-copy loop equals the sample-by-sample reference: push each sample and decode when the chunk becomes full, ignoring samples after an endpoint. |
| AsrSession.FillSplit | kaldi-js.cc:274-301 | How the audio is cut into messages does not matter: filling with xs and then ys reaches the same session as filling with xs + ys. |
| AsrSession.Payload | kaldi-js.cc:303-309 | The posted payload is "" when the final relative cost exceeds 8. Otherwise it is the best transcript, or the symbol-lookup fault when a word id is missing. |
| AsrSession.ProcessAudio | kaldi-js.cc:274-326 | Disabled audio changes nothing. Otherwise the copy loop runs. If an endpoint is set afterwards, exactly one payload is appended to the post log and enabled becomes false while endpoint_detected stays true; if not, nothing is posted. If the transcript needs a word id missing from the table, the message fails with that payload's lookup fault, naming the id. The session invariant is kept, and the chunk capacity, rate and symbol table are unchanged. |
| AsrSession.Reset | kaldi-js.cc:257-271 | Resetting a valid session gives a valid session with no buffered samples, audio disabled and no endpoint, whatever its counters were. total_length is kept, and the counters still satisfy their invariant against it. So are the capacity, rate, symbol table and both logs. |
| Transcript.Find | kaldi-js.cc:67 | The symbol lookup gives the table's symbol for a known id and "" for an absent one, so a non-empty result is always the table's entry. |
| Transcript.RenderFrom | kaldi-js.cc:65-75 | Rendering succeeds iff every remaining id is in the table. On success it is the accumulated text followed by the symbols joined by single spaces. On failure it names the first unknown id. |
| Transcript.BestTranscript | kaldi-js.cc:45-76 | The result is "" when no frames were decoded or the lattice is empty. Otherwise it is Ok iff every word id has a symbol. The Ok value is the symbols joined by single spaces with no trailing separator. The error value is the first unknown id. |
| Transcript.TranscriptFields | kaldi-js.cc:65-75 | Splitting a non-empty transcript at spaces recovers the symbols of the best path, when the table's symbols hold no space. |
| Protocol.ChunkCapacity | kaldi-js.cc:229-232 | The chunk size is never 0. It is at least 1 iff rate × chunk_length > -1. When it is 2 or more it is the truncated product, bracketed by the exact product. A result of 1 means the product lies in (-1, 2); a negative result is the truncation toward zero of a negative product. |
| Protocol.TruncDiv | kaldi-js.cc:229 | The `int32(...)` cast of a quotient truncates toward zero: the magnitude is the largest multiple of the divisor not above the dividend's magnitude, and the sign is the dividend's (0 when the magnitude is below the divisor). |
| Protocol.FreshSession | kaldi-js.cc:137-232 | The session init builds (a value-initialised `new Asr()`, then ResetDecoder and the chunk resize) is valid, with audio disabled, no endpoint, and empty engine and post logs. |
| Protocol.InitWorker | kaldi-js.cc:130-238 | Other than two positional arguments leaves a decoder-less Asr. With two, a success is always a loaded session; a model that fails to load is `LoadFailure`, a negative truncated chunk size is `BadChunkLength`, and init succeeds iff every engine object it builds constructs (`loads`) and the chunk size is positive. The session it builds has that capacity, an empty chunk, zero counters, both flags false, and the configured rate and symbols. |
| Protocol.HandleMessage | kaldi-js.cc:377-397 | Unparsable and unhandled messages leave the state unchanged. Start, Audio and Cancel before any Init fault on the null asr. Init is init. On a loaded session Start only enables audio, Audio is process_audio with its error passed through, and Cancel is ResetDecoder. On a decoder-less Asr Start enables audio, Audio faults once enabled and is ignored before, and Cancel faults. The worker invariant is kept. |
| Protocol.Run | kaldi-js.cc:377-397 | Handling a message sequence in order keeps the worker invariant. |
| Protocol.StartIdempotent | kaldi-js.cc:385-386 | Start only sets enabled; a second Start changes nothing. |
| Protocol.CancelResets | kaldi-js.cc:389-392 | Cancel empties the chunk (chunk_valid 0), sets last_output to 0 and clears both flags. It keeps total_length and both logs. |
| Protocol.CadenceAfterCancel | kaldi-js.cc:348-367 | After Cancel and Start, once total_length exceeds one rate, the first full chunk runs the cadence branch: last_output becomes one rate and the endpoint is queried. |
| Protocol.DisabledAudioIgnored | kaldi-js.cc:274-277 | Audio while disabled changes nothing and feeds nothing. |
| Protocol.RestartReposts | kaldi-js.cc:274-326 | With endpoint_detected set, Start then Audio hands the engine nothing, keeps the buffer and total_length, leaves audio disabled and posts one more payload. |
| Protocol.EndpointLatches | kaldi-js.cc:288-301 | Once an endpoint is detected, no sample reaches the engine and the buffer and total_length stay put, whatever Start, Audio or ignored messages follow, until Cancel or Init. |
| Protocol.TwoChunks | kaldi-js.cc:229-232 | A 16 kHz engine with 0.18 s chunks has capacity 2880. Init, Start and one 5760-sample Audio with no endpoint hand the engine all 5760 samples in order and leave the buffer empty, with nothing posted. |
| Text.Fields | alexa_fst.py:126 | As `re.split('[ -]', v)` does, it always gives at least one field, keeps empty fields, and no field holds a separator. |
| Text.Words | alexa_fst.py:112 | As `str.split()` does, it gives non-empty tokens free of whitespace. |
| Text.WordsOfEveryText | alexa_fst.py:112 | `str.split()` is pinned down on every text: the empty text has no words, a non-empty whitespace-free text is one word, and any whitespace character cuts a text into the words before it followed by the words after it, so runs and leading or trailing whitespace add nothing. |
| Text.WordsJoin | alexa_fst.py:112 | Splitting the single-space join of non-empty whitespace-free tokens gives the tokens back. |
| Text.FieldsJoin | alexa_fst.py:126 | Splitting the join of separator-free fields at the separators gives the fields back. |
| Text.FieldsAppend | alexa_fst.py:126 | As with `re.split`, a separator cuts a text into the fields before it followed by the fields after it. |
| AlexaGrammar.Vocabulary | alexa_fst.py:65-68 | The dictionary has exactly the words of the entries, and each word maps to its last entry's id. |
| AlexaGrammar.MaxId | alexa_fst.py:69 | The result is an id of the vocabulary and no id exceeds it. |
| AlexaGrammar.LabelsOf | alexa_fst.py:95-97 | eps and unk are the ids of `<eps>` and `<unk>`, and the restart id is above every id of the vocabulary. |
| AlexaGrammar.FreshAll | alexa_fst.py:104-107 | The intents pass the intent-word assertion iff no intent word is in the vocabulary and none repeats an earlier one. |
| AlexaGrammar.EnrolIds | alexa_fst.py:104-107 | Adding the intent words in order keeps every old word's id, gives the k-th intent word id next + k, and adds nothing else. |
| AlexaGrammar.IntentWordNames | alexa_fst.py:105 | The intent word is the intent's name in square brackets: two characters longer, opening with `[`, closing with `]`, and the name between them; so two intents share a word exactly when they share a name. |
| AlexaGrammar.Start | alexa_fst.py:93-103 | An empty vocabulary fails (max of no ids); a missing `<eps>`, then a missing `<unk>`, fails. Otherwise `[restart]` gets the first id above the vocabulary, the word counter continues after it, and the two header lines satisfy the invariant. |
| AlexaGrammar.RestartArcs | alexa_fst.py:113-117 | Allocating n states gives one restart escape per state, in order. The states joined to the initial state are exactly those n, no intent arc is added, and the lines satisfy the body invariant. |
| AlexaGrammar.Alloc | alexa_fst.py:113-117 | Allocating n fresh states appends exactly their restart escapes and keeps the invariant, the vocabulary and the earlier lines. |
| AlexaGrammar.Chain | alexa_fst.py:134-149 | The token arcs appended along the path keep the invariant, the counters and the earlier lines, and add no intent arc. |
| AlexaGrammar.Enter | alexa_fst.py:107-110 | The intent word takes the next id. A fresh state is entered from the initial state by one `<eps>`:word arc of weight 0. The invariant and earlier lines are kept, and the intent arcs gain exactly that word. |
| AlexaGrammar.ValueTokens | alexa_fst.py:126 | As `re.split('[ -]', value)` does, a value has at least one token, no token holds a space or a hyphen, and a value without either is its own single token. |
| AlexaGrammar.ValueTokensSplit | alexa_fst.py:126 | A space or hyphen cuts a value into the tokens before it followed by the tokens after it, and a separator-free piece before it is one token; with ValueTokens this fixes the tokens as the value's pieces in order, empty ones included. |
| AlexaGrammar.AddValue | alexa_fst.py:126-142 | A slot value adds one fresh state per token but the last, and 2n - 1 lines for n tokens. The generator only extends. |
| AlexaGrammar.ValueRestarts | alexa_fst.py:127-131 | The first lines a value adds are the restart escapes of its intermediate states, in order. |
| AlexaGrammar.AddValues | alexa_fst.py:125-142 | The values of a slot type add at least one line each, and the generator only extends. |
| AlexaGrammar.ValuePath | alexa_fst.py:126-142 | A value's arcs form a path between the token's two states, reading the value's tokens split on space and hyphen, unknown ones as `<unk>`. |
| AlexaGrammar.ValuesPaths | alexa_fst.py:125-142 | Every value of the slot type is a parallel path between the same two states. |
| AlexaGrammar.IsSlot | alexa_fst.py:123 | A token is a slot when it starts with `{` and ends with `}`; such a token has at least two characters, so a lone `{` is a plain token. |
| AlexaGrammar.SlotName | alexa_fst.py:124 | The slot name is the token without its first and last character: wrapping it in braces gives the token back. |
| AlexaGrammar.TokenLabel | alexa_fst.py:137-149 | A token reads and writes the same label: its id when it is in the vocabulary, `<unk>` otherwise. |
| AlexaGrammar.TokenArc | alexa_fst.py:137-149 | A token's arc goes from the token's first state to its second with weight 0 and the token's label on both sides. |
| AlexaGrammar.AddToken | alexa_fst.py:123-149 | A token succeeds iff it is plain or its slot and slot type are known. An undeclared slot gives UnknownSlot and an unknown type gives UnknownType. On success the generator only extends. |
| AlexaGrammar.TokenPaths | alexa_fst.py:123-149 | Every reading of a token is a path between its two states: `wid:wid` for a known plain token, `<unk>:<unk>` for an unknown one, any value's tokens for a slot. |
| AlexaGrammar.AddTokens | alexa_fst.py:120-149 | The tokens succeed iff every slot token resolves; the generator only extends. |
| AlexaGrammar.TokensPaths | alexa_fst.py:120-149 | Each token's readings are paths between consecutive states of the utterance's path. |
| AlexaGrammar.AddUtterance | alexa_fst.py:111-149 | An utterance succeeds iff its slot tokens resolve; the generator only extends. |
| AlexaGrammar.UtteranceRestarts | alexa_fst.py:113-117 | An utterance of n tokens first appends the restart escapes of its n - 1 fresh intermediate states, in order. |
| AlexaGrammar.UtterancePaths | alexa_fst.py:111-149 | Every reading of a non-empty utterance is a path from the intent's initial state to the final state. |
| AlexaGrammar.AddUtterances | alexa_fst.py:111-149 | All utterances succeed iff all their slot tokens resolve; the generator only extends. |
| AlexaGrammar.UtterancesPaths | alexa_fst.py:111-149 | Every reading of every non-empty utterance is a path from the intent's initial state to the final state. |
| AlexaGrammar.AddIntent | alexa_fst.py:104-149 | An intent fails with IntentWordTaken when its word is already a word, and otherwise succeeds iff its slots resolve. On success its word takes the next id, the invariant and earlier lines are kept, and the intent arcs gain exactly that id. |
| AlexaGrammar.IntentPath | alexa_fst.py:104-149 | Every reading of one of the intent's utterances, preceded by `<eps>`:intent-word, is a path from the initial to the final state. |
| AlexaGrammar.BuildIntents | alexa_fst.py:104-149 | The intents succeed iff their words are fresh and distinct and all slots resolve. The vocabulary gains the intent words with consecutive ids, and the intent arcs write exactly those ids in order. |
| AlexaGrammar.IntentPathAt | alexa_fst.py:104-149 | A reading of intent k, behind the arc writing id nextWord + k, is a path of the finished graph. |
| AlexaGrammar.Generate | alexa_fst.py:93-149 | Generation succeeds iff the vocabulary has ids, `<eps>` and `<unk>`, the intent words are new and distinct, and every slot resolves; the three vocabulary errors come in the source's order. The graph satisfies the invariant, and apart from its restart self-loop, the arcs out of the initial state write exactly the intent ids restart + 1, restart + 2, … in order. |
| AlexaGrammar.FreshWordIds | alexa_fst.py:93-107 | The written vocabulary keeps every original id, all below `[restart]`'s. `[restart]` takes the first id above them, intent k takes the k-th id after it, and no other word is added. |
| AlexaGrammar.GrammarAccepts | alexa_fst.py:93-149 | Every reading of every non-empty utterance of intent k, behind the arc writing intent k's id, is a path of the generated graph from the initial state to the final state. |
| AlexaGrammar.Escapes | alexa_fst.py:104-131 | Every state other than the initial and final ones has a restart escape `<unk>:[restart]` to the initial state, or is an intent's initial state entered by an `<eps>` arc. |
| AlexaGrammar.JoinedOnce | alexa_fst.py:104-131 | No state is joined to the initial state by two lines, so each intermediate state has exactly one restart escape and each intent state exactly one entry arc. |
| AlexaGrammar.Header | alexa_fst.py:99-103 | The graph opens with the initial state's `<unk>:[restart]` self-loop and the final state 1 with weight 0. No other line is a final state. |

## Left out

- Protocol.InitWorker: the Init message's `sample_frequency` is not modelled. ResetDecoder (kaldi-js.cc:227, 259-268) builds the feature pipeline and `LinearResample` from it, and a failure to construct them is folded into `loads` together with the model, graph and symbol table.
- The resampler and `Scale(kWaveSampleMax)` (kaldi-js.cc:285-286) are floating-point DSP. An Audio message carries their output as opaque samples.
- The wall-clock pacing `WaitUntil` (kaldi-js.cc:335) is a timer side effect with no effect on state.
- Silence weighting and iVector adaptation (kaldi-js.cc:339-343) are calls into Kaldi with no effect on the modelled fields.
- The diagnostic log of the cost and transcript at kaldi-js.cc:351 is left out. It renders a transcript and could raise the same symbol-lookup fault as finalization.
- The dead `if (false && ...)` block (kaldi-js.cc:360-365) and the unused `start()` (kaldi-js.cc:240-242) are left out.
- Loading the model, graph and symbol table, and ParseOptions (kaldi-js.cc:147-208), are reduced to two facts: the positional-argument count and whether loading succeeds. A missing `--word-symbol-table` (a null table) is not modelled; the table is always present.
- Emscripten and protobuf glue are left out: `EM_ASM` posts, `ParseFromString`, `WriteMessage`, `main` and the readiness post. A post is an append to the `posted` log. A parse failure is the `Unparsable` message.
- Memory management in `~Asr` and `ResetDecoder` (deleting and rebuilding engine objects) is left out; Reset models the field updates only.
- Protocol.ChunkCapacity: uses the exact rational product rate × chunk_length, not the float product that `int32()` truncates, because float rounding is out of scope.
- AsrSession.DecodeChunk: `total_length`, `chunk_valid` and `last_output` are unbounded integers. The 32-bit `total_length` wraps after 2^31 samples (about 37 hours at 16 kHz), which is not modelled.
- The rate is a natural number and the final cost a real compared against 8. The source's `BaseFloat` rate is not modelled.
- In alexa_fst.py, the `KALDI_ENV` subprocess and the `compile_fst`/`mkgraph.sh` calls are left out (lines 16, 37-46, 151-156). So are writing words.txt (157-159) and all debug printing.
- Reading words.txt, the type files, intents.json and utterences.txt (lines 66-91) is left out. So are the `strip().lower()` of type values (line 74) and the split of utterance lines (line 88). The model starts from the parsed entries, the stripped values and the utterance strings.
- The `intents` dictionary is a sequence in the dictionary's order. A repeated intent word in that sequence fails with IntentWordTaken, as the assertion would.
- The intent-word `assert` (line 106) is modelled as always active. Running Python with `-O` would skip it.
- AlexaGrammar.GrammarAccepts: proves language inclusion only, that every reading of every utterance is a path. The converse is not proved: that every initial-to-final path reads as an intent arc followed by a reading, possibly interrupted by restart escapes.
- AlexaGrammar.Generate: the error results name the first failure in processing order for the vocabulary checks. For later failures, only the iff condition is stated; AddIntent and AddToken state which error each one gives.

=== FILE: grammar.dfy ===
/** The grammar generator for an Alexa skill: a vocabulary, slot types and
    intents become the text form of a weighted FST (one line per arc or
    final state) whose paths are the skill's utterances, plus the extended
    vocabulary. */

module AlexaGrammar {
  import opened Results
  import Text

  /** The words.txt symbol table: word to integer id. */
  type Vocab = map<string, int>

  /** One line of the FST text: `src dst ilabel olabel weight` or
      `state weight`. */
  datatype Line =
    | Arc(src: nat, dst: nat, ilabel: int, olabel: int, weight: int)
    | Final(state: nat, weight: int)

  /** A slot type: its name and its (already stripped, lower-cased) values. */
  datatype SlotType = SlotType(name: string, values: seq<string>)

  /** An intent: its name, slot name to slot type name, and its utterances. */
  datatype Intent = Intent(name: string, slots: map<string, string>, utts: seq<string>)

  datatype GenError =
    | EmptyVocabulary                  // max() of no ids
    | MissingSymbol(word: string)      // "<eps>" or "<unk>" not in words.txt
    | IntentWordTaken(word: string)    // the intent-word assertion
    | UnknownSlot(slot: string)        // `{slot}` not declared by the intent
    | UnknownType(typeName: string)    // slot type with no values file

  /** The three labels every part of the graph refers to. */
  datatype Labels = Labels(eps: int, unk: int, restart: int)

  /** The generator's state: the vocabulary so far, the next fresh word id,
      the next fresh state and the lines written so far. */
  datatype Gen = Gen(words: Vocab, nextWord: int, nextState: nat, lines: seq<Line>)

  const InitialState: nat := 0
  const FinalState: nat := 1
  const RestartWord: string := "[restart]"
  /** Slot values are split on single spaces and hyphens. */
  const ValueSeparators: set<char> := {' ', '-'}

  // ---------------------------------------------------------------------
  // The vocabulary and fresh word ids
  // ---------------------------------------------------------------------

  /** Entry `i` is the last one for its word. */
  predicate LastEntry(entries: seq<(string, int)>, i: int)
    requires 0 <= i < |entries|
  {
    forall j :: i < j < |entries| ==> entries[j].0 != entries[i].0
  }

  /** Reading words.txt into a dictionary: a later line for the same word
      overrides an earlier one. */
  function Vocabulary(entries: seq<(string, int)>): (r: Vocab)
    ensures forall w :: w in r <==> exists i :: 0 <= i < |entries| && entries[i].0 == w
    ensures forall i :: 0 <= i < |entries| && LastEntry(entries, i) ==> r[entries[i].0] == entries[i].1
  {
    if |entries| == 0 then map[]
    else
      var last := entries[|entries| - 1];
      var rest := Vocabulary(entries[..|entries| - 1]);
      assert forall i :: 0 <= i < |entries| - 1 ==> entries[..|entries| - 1][i] == entries[i];
      rest[last.0 := last.1]
  }

  lemma {:induction false} SetMaxExists(s: set<int>)
    requires |s| > 0
    ensures exists m :: m in s && forall v :: v in s ==> v <= m
    decreases |s|
  {
    if forall y :: y !in s {
      assert false;
    }
    var x :| x in s;
    if |s| > 1 {
      var rest := s - {x};
      assert |rest| == |s| - 1;
      SetMaxExists(rest);
      var m :| m in rest && forall v :: v in rest ==> v <= m;
      var top := if x < m then m else x;
      forall v | v in s
        ensures v <= top
      {
        if v != x {
          assert v in rest;
        }
      }
    } else {
      assert |s - {x}| == 0;
      assert s - {x} == {};
      assert s == {x};
    }
  }

  /** The largest id in the vocabulary. */
  function MaxId(words: Vocab): (m: int)
    requires |words| > 0
    ensures m in words.Values
    ensures forall w :: w in words ==> words[w] <= m
  {
    var w0 :| w0 in words;
    assert words[w0] in words.Values;
    assert |words.Values| > 0;
    SetMaxExists(words.Values);
    var m :| m in words.Values && forall v :: v in words.Values ==> v <= m;
    assert forall w :: w in words ==> words[w] in words.Values;
    m
  }

  /** A vocabulary the generator can start from. */
  predicate Ready(words: Vocab) {
    |words| > 0 && "<eps>" in words && "<unk>" in words
  }

  /** The labels of a ready vocabulary: `[restart]` is the first id above
      all of its ids. */
  function LabelsOf(words: Vocab): (l: Labels)
    requires Ready(words)
    ensures l.eps == words["<eps>"] && l.unk == words["<unk>"]
    ensures forall w :: w in words ==> words[w] < l.restart
    ensures l.restart - 1 in words.Values
  {
    Labels(words["<eps>"], words["<unk>"], MaxId(words) + 1)
  }

  /** The word that names an intent on the output side. */
  function IntentWord(intent: Intent): string
  {
    "[" + intent.name + "]"
  }

  /** An intent word is the intent's name in square brackets, and so two
      intents share a word exactly when they share a name. */
  lemma IntentWordNames(a: Intent, b: Intent)
    ensures var w := IntentWord(a);
      |w| == |a.name| + 2 && w[0] == '[' && w[|w| - 1] == ']' && w[1..|w| - 1] == a.name
    ensures IntentWord(a) == IntentWord(b) <==> a.name == b.name
  {
    var w := IntentWord(a);
    assert w[1..|w| - 1] == a.name;
    var v := IntentWord(b);
    assert v[1..|v| - 1] == b.name;
  }

  /** Intent words are new: none is in `taken`, and none repeats an
      earlier one. */
  predicate Fresh(taken: set<string>, intents: seq<Intent>)
    decreases |intents|
  {
    |intents| == 0 ||
    (IntentWord(intents[0]) !in taken && Fresh(taken + {IntentWord(intents[0])}, intents[1..]))
  }

  lemma {:induction false} FreshAll(taken: set<string>, intents: seq<Intent>)
    ensures Fresh(taken, intents) <==>
      forall k :: 0 <= k < |intents| ==>
        && IntentWord(intents[k]) !in taken
        && forall j :: 0 <= j < k ==> IntentWord(intents[j]) != IntentWord(intents[k])
    decreases |intents|
  {
    if |intents| > 0 {
      var w0 := IntentWord(intents[0]);
      var rest := intents[1..];
      FreshAll(taken + {w0}, rest);
      assert forall k :: 1 <= k < |intents| ==> rest[k - 1] == intents[k];
      if !Fresh(taken, intents) && w0 !in taken {
        var k :| 0 <= k < |rest| && !(
          && IntentWord(rest[k]) !in taken + {w0}
          && forall j :: 0 <= j < k ==> IntentWord(rest[j]) != IntentWord(rest[k]));
        assert rest[k] == intents[k + 1];
        if IntentWord(rest[k]) !in taken + {w0} {
          var j :| 0 <= j < k && IntentWord(rest[j]) == IntentWord(rest[k]);
          assert rest[j] == intents[j + 1];
        }
      }
    }
  }

  /** The vocabulary after the intents' words are added in order, the first
      one with id `next`. */
  function Enrol(words: Vocab, next: int, intents: seq<Intent>): Vocab
    decreases |intents|
  {
    if |intents| == 0 then words
    else Enrol(words[IntentWord(intents[0]) := next], next + 1, intents[1..])
  }

  /** The vocabulary in force while intent `k` is compiled. */
  function WordsFor(words: Vocab, next: int, intents: seq<Intent>, k: int): Vocab
    requires 0 <= k < |intents|
  {
    Enrol(words, next, intents[..k + 1])
  }

  lemma {:induction false} EnrolIds(words: Vocab, next: int, intents: seq<Intent>)
    requires Fresh(words.Keys, intents)
    ensures forall w :: w in words ==> w in Enrol(words, next, intents) && Enrol(words, next, intents)[w] == words[w]
    ensures forall k :: 0 <= k < |intents| ==>
      IntentWord(intents[k]) in Enrol(words, next, intents) && Enrol(words, next, intents)[IntentWord(intents[k])] == next + k
    ensures forall w :: w in Enrol(words, next, intents) ==>
      w in words || exists k :: 0 <= k < |intents| && w == IntentWord(intents[k])
    decreases |intents|
  {
    if |intents| > 0 {
      var w0 := IntentWord(intents[0]);
      var rest := intents[1..];
      assert words[w0 := next].Keys == words.Keys + {w0};
      EnrolIds(words[w0 := next], next + 1, rest);
      var e := Enrol(words, next, intents);
      assert e == Enrol(words[w0 := next], next + 1, rest);
      forall k | 0 <= k < |intents|
        ensures IntentWord(intents[k]) in e && e[IntentWord(intents[k])] == next + k
      {
        if k > 0 {
          assert intents[k] == rest[k - 1];
        }
      }
      forall w | w in e
        ensures w in words || exists k :: 0 <= k < |intents| && w == IntentWord(intents[k])
      {
        if w !in words && w != w0 {
          var k :| 0 <= k < |rest| && w == IntentWord(rest[k]);
          assert rest[k] == intents[k + 1];
        }
      }
    }
  }

  // ---------------------------------------------------------------------
  // The shape of the line list
  // ---------------------------------------------------------------------

  /** The consecutive integers from `a` up to but excluding `a + n`. */
  function Ids(a: int, n: nat): (r: seq<int>)
    ensures |r| == n && forall i :: 0 <= i < n ==> r[i] == a + i
  {
    seq(n, i => a + i)
  }

  lemma IdsAfter(x: seq<int>, a: int)
    ensures x + Ids(a, 0) == x
  {
  }

  lemma IdsStep(x: seq<int>, y: seq<int>, z: seq<int>, a: int, b: int, n: nat, m: nat)
    requires b == a + 1 && m == n + 1
    requires y == x + [a] && z == y + Ids(b, n)
    ensures z == x + Ids(a, m)
  {
    assert [a] + Ids(a + 1, n) == Ids(a, n + 1);
  }

  /** The states `a .. b-1`. */
  function States(a: nat, b: nat): (r: seq<nat>)
    requires a <= b
    ensures |r| == b - a && forall i :: 0 <= i < b - a ==> r[i] == a + i
  {
    seq(b - a, i => a + i)
  }

  lemma StatesConcat(a: nat, b: nat, c: nat)
    requires a <= b <= c
    ensures States(a, b) + States(b, c) == States(a, c)
  {
    var x := States(a, b) + States(b, c);
    forall i | 0 <= i < c - a
      ensures x[i] == States(a, c)[i]
    {
      if i >= b - a {
        assert x[i] == States(b, c)[i - (b - a)];
      }
    }
  }

  /** The escape arc from state `q` back to the initial state. */
  function RestartArc(q: nat, l: Labels): Line {
    Arc(q, InitialState, l.unk, l.restart, 0)
  }

  /** Lines `base .. base + n - 1` of `lines` are the restart escapes of
      the states from `first` on, in order. */
  predicate RestartsFrom(lines: seq<Line>, base: nat, first: nat, n: int, l: Labels) {
    && base + n <= |lines|
    && forall k :: base <= k < base + n ==> lines[k] == RestartArc(first + (k - base), l)
  }

  /** The state other than the initial one that a line joins to the initial
      state, if any. */
  function Link(x: Line): seq<nat> {
    if x.Arc? && x.dst == InitialState then [x.src]
    else if x.Arc? && x.src == InitialState then [x.dst]
    else []
  }

  /** The output labels of the arcs leaving the initial state. */
  function Out(x: Line): seq<int> {
    if x.Arc? && x.src == InitialState then [x.olabel] else []
  }

  function Links(ls: seq<Line>): seq<nat> {
    if |ls| == 0 then [] else Link(ls[0]) + Links(ls[1..])
  }

  function Outs(ls: seq<Line>): seq<int> {
    if |ls| == 0 then [] else Out(ls[0]) + Outs(ls[1..])
  }

  /** A line after the first two: an arc of weight 0 between allocated
      states, where an arc into the initial state is a restart escape and an
      arc out of it reads `<eps>`. */
  predicate BodyLine(x: Line, l: Labels, n: nat) {
    && x.Arc? && x.weight == 0 && x.src < n && x.dst < n
    && (x.dst == InitialState ==> x.src >= 2 && x.ilabel == l.unk && x.olabel == l.restart)
    && (x.src == InitialState ==> x.dst >= 2 && x.ilabel == l.eps)
  }

  /** Every line of `ls` is a body line. */
  predicate BodyLines(ls: seq<Line>, l: Labels, n: nat)
    decreases |ls|
  {
    |ls| == 0 || (BodyLine(ls[0], l, n) && BodyLines(ls[1..], l, n))
  }

  lemma {:induction false} BodyLinesAll(ls: seq<Line>, l: Labels, n: nat)
    ensures BodyLines(ls, l, n) <==> forall k :: 0 <= k < |ls| ==> BodyLine(ls[k], l, n)
    decreases |ls|
  {
    if |ls| > 0 {
      BodyLinesAll(ls[1..], l, n);
      assert forall k :: 1 <= k < |ls| ==> ls[1..][k - 1] == ls[k];
    }
  }

  /** The invariant of the line list: it opens with the restart self-loop on
      the initial state and the final state with weight 0; every other line
      is a body arc; and reading the lines in order, the states joined to the
      initial state are 2, 3, ..., nextState - 1, each exactly once: every
      allocated state has either its one epsilon arc from the initial state
      or its one restart arc back to it. */
  predicate WellFormed(g: Gen, l: Labels) {
    && g.nextState >= 2
    && |g.lines| >= 2
    && g.lines[0] == RestartArc(InitialState, l)
    && g.lines[1] == Final(FinalState, 0)
    && BodyLines(g.lines[2..], l, g.nextState)
    && Links(g.lines[2..]) == States(2, g.nextState)
  }

  /** `a` is an initial part of `b`. */
  predicate Prefix(a: seq<Line>, b: seq<Line>) {
    |a| <= |b| && forall k :: 0 <= k < |a| ==> b[k] == a[k]
  }

  lemma LinksConcat(a: seq<Line>, b: seq<Line>)
    ensures Links(a + b) == Links(a) + Links(b)
    ensures Outs(a + b) == Outs(a) + Outs(b)
  {
    LinksOfConcat(a, b);
    OutsOfConcat(a, b);
  }

  lemma AppendAssoc<T>(x: seq<T>, y: seq<T>, z: seq<T>)
    ensures x + (y + z) == (x + y) + z
  {
  }

  lemma {:induction false} LinksOfConcat(a: seq<Line>, b: seq<Line>)
    ensures Links(a + b) == Links(a) + Links(b)
    decreases |a|
  {
    if |a| == 0 {
      assert a + b == b;
    } else {
      assert (a + b)[0] == a[0] && (a + b)[1..] == a[1..] + b;
      assert Links(a + b) == Link(a[0]) + Links(a[1..] + b);
      assert Links(a) == Link(a[0]) + Links(a[1..]);
      LinksOfConcat(a[1..], b);
      AppendAssoc(Link(a[0]), Links(a[1..]), Links(b));
    }
  }

  lemma {:induction false} OutsOfConcat(a: seq<Line>, b: seq<Line>)
    ensures Outs(a + b) == Outs(a) + Outs(b)
    decreases |a|
  {
    if |a| == 0 {
      assert a + b == b;
    } else {
      assert (a + b)[0] == a[0] && (a + b)[1..] == a[1..] + b;
      assert Outs(a + b) == Out(a[0]) + Outs(a[1..] + b);
      assert Outs(a) == Out(a[0]) + Outs(a[1..]);
      OutsOfConcat(a[1..], b);
      AppendAssoc(Out(a[0]), Outs(a[1..]), Outs(b));
    }
  }

  /** Appending a block of body arcs whose links are exactly the fresh
      states `g.nextState .. n - 1` keeps the invariant, `n` being the next
      fresh state afterwards. */
  lemma AppendBlock(g: Gen, l: Labels, block: seq<Line>, n: nat)
    requires WellFormed(g, l)
    requires g.nextState <= n
    requires BodyLines(block, l, n)
    requires Links(block) == States(g.nextState, n)
    ensures WellFormed(g.(nextState := n, lines := g.lines + block), l)
    ensures Outs((g.lines + block)[2..]) == Outs(g.lines[2..]) + Outs(block)
  {
    var ls := g.lines + block;
    BodyAppend(g.lines, block, l, g.nextState, n);
    LinksAppend(g.lines, block, g.nextState, n);
    assert ls[0] == g.lines[0] && ls[1] == g.lines[1];
  }

  lemma BodyAppend(ls: seq<Line>, block: seq<Line>, l: Labels, m: nat, n: nat)
    requires m <= n && |ls| >= 2
    requires BodyLines(ls[2..], l, m)
    requires BodyLines(block, l, n)
    ensures BodyLines((ls + block)[2..], l, n)
  {
    assert (ls + block)[2..] == ls[2..] + block;
    BodyLinesConcat(ls[2..], block, l, m, n);
  }

  lemma {:induction false} BodyLinesConcat(a: seq<Line>, b: seq<Line>, l: Labels, m: nat, n: nat)
    requires m <= n && BodyLines(a, l, m) && BodyLines(b, l, n)
    ensures BodyLines(a + b, l, n)
    decreases |a|
  {
    if |a| == 0 {
      assert a + b == b;
    } else {
      BodyLinesConcat(a[1..], b, l, m, n);
      assert (a + b)[1..] == a[1..] + b;
    }
  }

  lemma LinksAppend(ls: seq<Line>, block: seq<Line>, m: nat, n: nat)
    requires 2 <= m <= n && |ls| >= 2
    requires Links(ls[2..]) == States(2, m)
    requires Links(block) == States(m, n)
    ensures Links((ls + block)[2..]) == States(2, n)
    ensures Outs((ls + block)[2..]) == Outs(ls[2..]) + Outs(block)
  {
    var tail := (ls + block)[2..];
    assert tail == ls[2..] + block;
    calc {
      Links(tail);
      == { LinksOfConcat(ls[2..], block); }
      Links(ls[2..]) + Links(block);
      == { StatesConcat(2, m, n); }
      States(2, n);
    }
    OutsOfConcat(ls[2..], block);
  }

  /** The restart arcs of the states `first .. first + n - 1`. */
  function RestartArcs(first: nat, n: nat, l: Labels): (r: seq<Line>)
    requires first >= 2
    ensures |r| == n && forall i :: 0 <= i < n ==> r[i] == RestartArc(first + i, l)
    ensures Links(r) == States(first, first + n) && Outs(r) == []
    ensures BodyLines(r, l, first + n)
    decreases n
  {
    if n == 0 then []
    else
      var rest := RestartArcs(first + 1, n - 1, l);
      var r := [RestartArc(first, l)] + rest;
      assert r[1..] == rest;
      StatesConcat(first, first + 1, first + n);
      r
  }

  /** Allocating `n` fresh states, each with its restart arc. */
  function Alloc(g: Gen, l: Labels, n: nat): (r: Gen)
    requires WellFormed(g, l)
    ensures WellFormed(r, l)
    ensures r.words == g.words && r.nextWord == g.nextWord && r.nextState == g.nextState + n
    ensures |r.lines| == |g.lines| + n && Prefix(g.lines, r.lines)
    ensures RestartsFrom(r.lines, |g.lines|, g.nextState, n, l)
    ensures Outs(r.lines[2..]) == Outs(g.lines[2..])
  {
    var block := RestartArcs(g.nextState, n, l);
    AppendBlock(g, l, block, g.nextState + n);
    RestartsAppended(g.lines, block, g.nextState, n, l);
    assert Outs(g.lines[2..]) + [] == Outs(g.lines[2..]);
    Gen(g.words, g.nextWord, g.nextState + n, g.lines + block)
  }

  lemma RestartsAppended(a: seq<Line>, block: seq<Line>, first: nat, n: nat, l: Labels)
    requires |block| == n && forall i :: 0 <= i < n ==> block[i] == RestartArc(first + i, l)
    ensures Prefix(a, a + block) && RestartsFrom(a + block, |a|, first, n, l)
  {
    forall k | |a| <= k < |a| + n
      ensures (a + block)[k] == RestartArc(first + (k - |a|), l)
    {
      assert (a + block)[k] == block[k - |a|];
    }
  }

  lemma RestartsGrow(a: seq<Line>, b: seq<Line>, base: nat, first: nat, n: int, l: Labels)
    requires Prefix(a, b) && RestartsFrom(a, base, first, n, l)
    ensures RestartsFrom(b, base, first, n, l)
  {
    forall k | base <= k < base + n
      ensures b[k] == RestartArc(first + (k - base), l)
    {
      assert b[k] == a[k];
    }
  }

  /** The label pair a token gets: its own id on both sides, or `<unk>`. */
  function TokenLabel(words: Vocab, l: Labels, t: string): (r: (int, int))
    ensures r.0 == r.1
    ensures t in words ==> r.0 == words[t]
    ensures t !in words ==> r.0 == l.unk
  {
    if t in words then (words[t], words[t]) else (l.unk, l.unk)
  }

  /** The weight-0 arc from `p` to `q` that reads and writes a token's label. */
  function TokenArc(words: Vocab, l: Labels, t: string, p: nat, q: nat): (r: Line)
    ensures r.Arc? && r.src == p && r.dst == q && r.weight == 0 && r.ilabel == r.olabel
    ensures r.ilabel == if t in words then words[t] else l.unk
  {
    Arc(p, q, TokenLabel(words, l, t).0, TokenLabel(words, l, t).1, 0)
  }

  /** A path through allocated states: `p`, then the `n - 1` states from
      `first`, then `q`. */
  function Path(p: nat, first: nat, n: nat, q: nat): (r: seq<nat>)
    requires n >= 1
    ensures |r| == n + 1 && r[0] == p && r[n] == q
    ensures forall i :: 0 < i < n ==> r[i] == first + i - 1
  {
    [p] + States(first, first + n - 1) + [q]
  }

  lemma PathWithin(p: nat, first: nat, n: nat, q: nat)
    requires n >= 1 && 1 <= p < first && 1 <= q < first
    ensures forall i :: 0 <= i < n + 1 ==> 1 <= Path(p, first, n, q)[i] < first + n - 1
  {
  }

  /** The token arcs along `path`. */
  function TokenArcs(words: Vocab, l: Labels, toks: seq<string>, path: seq<nat>): (r: seq<Line>)
    requires |path| == |toks| + 1
    ensures |r| == |toks| && forall i :: 0 <= i < |toks| ==> r[i] == TokenArc(words, l, toks[i], path[i], path[i + 1])
  {
    seq(|toks|, i requires 0 <= i < |toks| => TokenArc(words, l, toks[i], path[i], path[i + 1]))
  }

  /** Arcs that do not touch the initial state join nothing to it. */
  lemma {:induction false} InnerLinks(block: seq<Line>)
    requires forall k :: 0 <= k < |block| ==> block[k].Arc? && block[k].src != InitialState && block[k].dst != InitialState
    ensures Links(block) == [] && Outs(block) == []
    decreases |block|
  {
    if |block| > 0 {
      InnerLinks(block[1..]);
    }
  }

  /** One token arc per token, along the states of `path`. */
  function Chain(g: Gen, l: Labels, toks: seq<string>, path: seq<nat>): (r: Gen)
    requires WellFormed(g, l)
    requires |path| == |toks| + 1
    requires forall i :: 0 <= i < |path| ==> 1 <= path[i] < g.nextState
    ensures WellFormed(r, l)
    ensures r.words == g.words && r.nextWord == g.nextWord && r.nextState == g.nextState
    ensures r.lines == g.lines + TokenArcs(g.words, l, toks, path) && Prefix(g.lines, r.lines)
    ensures Outs(r.lines[2..]) == Outs(g.lines[2..])
  {
    ChainBlock(g, l, toks, path);
    g.(lines := g.lines + TokenArcs(g.words, l, toks, path))
  }

  lemma ChainBlock(g: Gen, l: Labels, toks: seq<string>, path: seq<nat>)
    requires WellFormed(g, l)
    requires |path| == |toks| + 1
    requires forall i :: 0 <= i < |path| ==> 1 <= path[i] < g.nextState
    ensures WellFormed(g.(lines := g.lines + TokenArcs(g.words, l, toks, path)), l)
    ensures Outs((g.lines + TokenArcs(g.words, l, toks, path))[2..]) == Outs(g.lines[2..])
  {
    var block := TokenArcs(g.words, l, toks, path);
    forall k | 0 <= k < |block|
      ensures BodyLine(block[k], l, g.nextState)
    {
      assert block[k] == TokenArc(g.words, l, toks[k], path[k], path[k + 1]);
    }
    BodyLinesAll(block, l, g.nextState);
    InnerLinks(block);
    assert States(g.nextState, g.nextState) == [];
    AppendBlock(g, l, block, g.nextState);
    assert g.(nextState := g.nextState, lines := g.lines + block) == g.(lines := g.lines + block);
    assert Outs(g.lines[2..]) + [] == Outs(g.lines[2..]);
  }

  /** `r` continues `g`: the same vocabulary and word counter, no state
      given back, the lines of `g` kept as a prefix, no new arc out of the
      initial state, and the invariant still holds. */
  predicate Extends(g: Gen, r: Gen, l: Labels) {
    && |g.lines| >= 2
    && WellFormed(r, l)
    && r.words == g.words && r.nextWord == g.nextWord && r.nextState >= g.nextState
    && Prefix(g.lines, r.lines)
    && Outs(r.lines[2..]) == Outs(g.lines[2..])
  }

  lemma ExtendsTrans(a: Gen, b: Gen, c: Gen, l: Labels)
    requires Extends(a, b, l) && Extends(b, c, l)
    ensures Extends(a, c, l)
  {
  }

  // ---------------------------------------------------------------------
  // Paths through the arcs
  // ---------------------------------------------------------------------

  /** Arc `x` leaves `p` reading the label pair `lab`. */
  predicate Step(x: Line, p: nat, lab: (int, int)) {
    x.Arc? && x.src == p && x.ilabel == lab.0 && x.olabel == lab.1
  }

  /** `ks` lists, in order, the arcs of a path among `lines` from `p` to
      `q` reading the label pairs `labels` (input label, output label). */
  predicate Walk(lines: seq<Line>, ks: seq<int>, p: nat, q: nat, labels: seq<(int, int)>)
    decreases |ks|
  {
    && |ks| == |labels|
    && if |ks| == 0 then p == q
       else
         && 0 <= ks[0] < |lines| && Step(lines[ks[0]], p, labels[0])
         && Walk(lines, ks[1..], lines[ks[0]].dst, q, labels[1..])
  }

  /** The arcs among `lines` form a path from `p` to `q` reading `labels`. */
  ghost predicate HasPath(lines: seq<Line>, p: nat, q: nat, labels: seq<(int, int)>) {
    exists ks :: Walk(lines, ks, p, q, labels)
  }

  /** A path can start with any arc. */
  lemma PathFrom(lines: seq<Line>, k: int, q: nat, labels: seq<(int, int)>)
    requires 0 <= k < |lines| && lines[k].Arc?
    requires HasPath(lines, lines[k].dst, q, labels)
    ensures HasPath(lines, lines[k].src, q, [(lines[k].ilabel, lines[k].olabel)] + labels)
  {
    var ks :| Walk(lines, ks, lines[k].dst, q, labels);
    var ls := [(lines[k].ilabel, lines[k].olabel)] + labels;
    assert ls[1..] == labels;
    assert ([k] + ks)[1..] == ks;
    assert Walk(lines, [k] + ks, lines[k].src, q, ls);
  }

  /** Writing more lines keeps every walk. */
  lemma {:induction false} WalkGrows(a: seq<Line>, b: seq<Line>, ks: seq<int>, p: nat, q: nat, labels: seq<(int, int)>)
    requires Prefix(a, b)
    requires Walk(a, ks, p, q, labels)
    ensures Walk(b, ks, p, q, labels)
    decreases |ks|
  {
    if |ks| > 0 {
      WalkGrows(a, b, ks[1..], a[ks[0]].dst, q, labels[1..]);
    }
  }

  lemma PathGrows(a: seq<Line>, b: seq<Line>, p: nat, q: nat, labels: seq<(int, int)>)
    requires Prefix(a, b) && HasPath(a, p, q, labels)
    ensures HasPath(b, p, q, labels)
  {
    var ks :| Walk(a, ks, p, q, labels);
    WalkGrows(a, b, ks, p, q, labels);
  }

  /** Two walks that meet make one. */
  lemma {:induction false} WalkConcat(lines: seq<Line>, xs: seq<int>, ys: seq<int>, p: nat, m: nat, q: nat,
                                      x: seq<(int, int)>, y: seq<(int, int)>)
    requires Walk(lines, xs, p, m, x) && Walk(lines, ys, m, q, y)
    ensures Walk(lines, xs + ys, p, q, x + y)
    decreases |xs|
  {
    if |xs| == 0 {
      assert xs + ys == ys && x + y == y;
    } else {
      WalkConcat(lines, xs[1..], ys, lines[xs[0]].dst, m, q, x[1..], y);
      assert (xs + ys)[1..] == xs[1..] + ys;
      assert (x + y)[1..] == x[1..] + y;
    }
  }

  lemma PathConcat(lines: seq<Line>, p: nat, m: nat, q: nat, x: seq<(int, int)>, y: seq<(int, int)>)
    requires HasPath(lines, p, m, x) && HasPath(lines, m, q, y)
    ensures HasPath(lines, p, q, x + y)
  {
    var xs :| Walk(lines, xs, p, m, x);
    var ys :| Walk(lines, ys, m, q, y);
    WalkConcat(lines, xs, ys, p, m, q, x, y);
  }

  /** The label pairs of a run of tokens. */
  function Pairs(words: Vocab, l: Labels, toks: seq<string>): (r: seq<(int, int)>)
    ensures |r| == |toks| && forall i :: 0 <= i < |toks| ==> r[i] == TokenLabel(words, l, toks[i])
  {
    seq(|toks|, i requires 0 <= i < |toks| => TokenLabel(words, l, toks[i]))
  }

  /** Consecutive token arcs along `path` form a walk reading the tokens. */
  lemma {:induction false} ChainWalk(lines: seq<Line>, base: nat, words: Vocab, l: Labels, toks: seq<string>, path: seq<nat>)
    requires |path| == |toks| + 1
    requires base + |toks| <= |lines|
    requires forall k :: base <= k < base + |toks| ==>
      var i := k - base; lines[k] == TokenArc(words, l, toks[i], path[i], path[i + 1])
    ensures Walk(lines, Ids(base, |toks|), path[0], path[|toks|], Pairs(words, l, toks))
    decreases |toks|
  {
    if |toks| > 0 {
      assert forall i :: 0 <= i < |toks| - 1 ==> toks[1..][i] == toks[i + 1];
      assert forall i :: 0 <= i < |path| - 1 ==> path[1..][i] == path[i + 1];
      ChainWalk(lines, base + 1, words, l, toks[1..], path[1..]);
      var labels := Pairs(words, l, toks);
      assert labels[1..] == Pairs(words, l, toks[1..]);
      assert Ids(base, |toks|)[1..] == Ids(base + 1, |toks| - 1);
      assert lines[base] == TokenArc(words, l, toks[0], path[0], path[1]);
    }
  }

  lemma ChainPath(lines: seq<Line>, base: nat, words: Vocab, l: Labels, toks: seq<string>, path: seq<nat>)
    requires |path| == |toks| + 1
    requires base + |toks| <= |lines|
    requires forall k :: base <= k < base + |toks| ==>
      var i := k - base; lines[k] == TokenArc(words, l, toks[i], path[i], path[i + 1])
    ensures HasPath(lines, path[0], path[|toks|], Pairs(words, l, toks))
  {
    ChainWalk(lines, base, words, l, toks, path);
  }

  // ---------------------------------------------------------------------
  // Tokens, slots and the readings of an utterance
  // ---------------------------------------------------------------------

  /** The tokens of a slot value. */
  function ValueTokens(v: string): (r: seq<string>)
    ensures |r| >= 1
    ensures forall i | 0 <= i < |r| :: Text.Unseparated(r[i], ValueSeparators)
    ensures Text.Unseparated(v, ValueSeparators) ==> r == [v]
  {
    if Text.Unseparated(v, ValueSeparators) then
      Text.FieldsOfUnseparated(v, ValueSeparators);
      Text.Fields(v, ValueSeparators)
    else
      Text.Fields(v, ValueSeparators)
  }

  /** A space or hyphen cuts a value into the tokens before it and the
      tokens after it, so a value's tokens are its separator-free pieces in
      order, empty pieces included. */
  lemma ValueTokensSplit(a: string, c: char, b: string)
    requires c in ValueSeparators
    ensures ValueTokens(a + [c] + b) == ValueTokens(a) + ValueTokens(b)
    ensures Text.Unseparated(a, ValueSeparators) ==> ValueTokens(a + [c] + b) == [a] + ValueTokens(b)
  {
    Text.FieldsAppend(a, c, b, ValueSeparators);
  }

  function ValueLabels(words: Vocab, l: Labels, v: string): seq<(int, int)> {
    Pairs(words, l, ValueTokens(v))
  }

  /** A `{slot}` token. */
  predicate IsSlot(t: string)
    ensures IsSlot(t) ==> |t| >= 2
  {
    |t| > 0 && t[0] == '{' && t[|t| - 1] == '}'
  }

  /** The slot a `{name}` token names; the braces wrapped round it give the
      token back. */
  function SlotName(t: string): (name: string)
    requires IsSlot(t)
    ensures |name| == |t| - 2 && "{" + name + "}" == t
  {
    t[1..|t| - 1]
  }

  /** A slot token names a slot of the intent whose type is known. */
  predicate SlotResolves(intent: Intent, types: map<string, SlotType>, t: string) {
    IsSlot(t) ==> SlotName(t) in intent.slots && intent.slots[SlotName(t)] in types
  }

  /** Every slot token of `toks` resolves. */
  predicate TokensResolve(intent: Intent, types: map<string, SlotType>, toks: seq<string>)
    decreases |toks|
  {
    |toks| == 0 || (SlotResolves(intent, types, toks[0]) && TokensResolve(intent, types, toks[1..]))
  }

  /** Every slot token of every utterance in `utts` resolves. */
  predicate UttsResolve(intent: Intent, types: map<string, SlotType>, utts: seq<string>)
    decreases |utts|
  {
    |utts| == 0 || (TokensResolve(intent, types, Text.Words(utts[0])) && UttsResolve(intent, types, utts[1..]))
  }

  /** Every slot token of every utterance of every intent resolves. */
  predicate IntentsResolve(intents: seq<Intent>, types: map<string, SlotType>)
    decreases |intents|
  {
    |intents| == 0 || (UttsResolve(intents[0], types, intents[0].utts) && IntentsResolve(intents[1..], types))
  }

  lemma {:induction false} TokensResolveAll(intent: Intent, types: map<string, SlotType>, toks: seq<string>)
    ensures TokensResolve(intent, types, toks) <==> forall i :: 0 <= i < |toks| ==> SlotResolves(intent, types, toks[i])
    decreases |toks|
  {
    if |toks| > 0 {
      TokensResolveAll(intent, types, toks[1..]);
      assert forall i :: 1 <= i < |toks| ==> toks[1..][i - 1] == toks[i];
    }
  }

  lemma {:induction false} UttsResolveAll(intent: Intent, types: map<string, SlotType>, utts: seq<string>)
    ensures UttsResolve(intent, types, utts) <==>
      forall j, i :: 0 <= j < |utts| && 0 <= i < |Text.Words(utts[j])| ==> SlotResolves(intent, types, Text.Words(utts[j])[i])
    decreases |utts|
  {
    if |utts| > 0 {
      UttsResolveAll(intent, types, utts[1..]);
      TokensResolveAll(intent, types, Text.Words(utts[0]));
      assert forall j :: 1 <= j < |utts| ==> utts[1..][j - 1] == utts[j];
    }
  }

  /** What one token of an utterance may read as: a plain token its own
      label; a slot token the labels of any one value of its type. */
  predicate Segment(words: Vocab, l: Labels, intent: Intent, types: map<string, SlotType>, t: string, seg: seq<(int, int)>) {
    if IsSlot(t) then
      && SlotResolves(intent, types, t)
      && var values := types[intent.slots[SlotName(t)]].values;
         exists j :: 0 <= j < |values| && seg == ValueLabels(words, l, values[j])
    else
      seg == [TokenLabel(words, l, t)]
  }

  /** One reading of a token sequence: a segment per token. */
  predicate Reading(words: Vocab, l: Labels, intent: Intent, types: map<string, SlotType>, toks: seq<string>, segs: seq<seq<(int, int)>>) {
    |segs| == |toks| && forall i :: 0 <= i < |toks| ==> Segment(words, l, intent, types, toks[i], segs[i])
  }

  function Flatten(segs: seq<seq<(int, int)>>): seq<(int, int)> {
    if |segs| == 0 then [] else segs[0] + Flatten(segs[1..])
  }

  /** Paths for every token make a path for every reading. */
  lemma {:induction false} ReadingPath(lines: seq<Line>, words: Vocab, l: Labels, intent: Intent, types: map<string, SlotType>,
                                       toks: seq<string>, path: seq<nat>, segs: seq<seq<(int, int)>>)
    requires |path| == |toks| + 1
    requires forall i, seg :: 0 <= i < |toks| && Segment(words, l, intent, types, toks[i], seg) ==>
      HasPath(lines, path[i], path[i + 1], seg)
    requires Reading(words, l, intent, types, toks, segs)
    ensures HasPath(lines, path[0], path[|toks|], Flatten(segs))
    decreases |toks|
  {
    if |toks| == 0 {
      assert Walk(lines, [], path[0], path[0], []);
    } else {
      assert forall i :: 0 <= i < |toks| - 1 ==> toks[1..][i] == toks[i + 1] && segs[1..][i] == segs[i + 1];
      assert forall i :: 0 <= i < |path| - 1 ==> path[1..][i] == path[i + 1];
      ReadingPath(lines, words, l, intent, types, toks[1..], path[1..], segs[1..]);
      assert Segment(words, l, intent, types, toks[0], segs[0]);
      PathConcat(lines, path[0], path[1], path[|toks|], segs[0], Flatten(segs[1..]));
    }
  }

  lemma ReadingPaths(lines: seq<Line>, words: Vocab, l: Labels, intent: Intent, types: map<string, SlotType>,
                     toks: seq<string>, path: seq<nat>)
    requires |path| == |toks| + 1
    requires forall i, seg :: 0 <= i < |toks| && Segment(words, l, intent, types, toks[i], seg) ==>
      HasPath(lines, path[i], path[i + 1], seg)
    ensures forall segs :: Reading(words, l, intent, types, toks, segs) ==>
      HasPath(lines, path[0], path[|toks|], Flatten(segs))
  {
    forall segs | Reading(words, l, intent, types, toks, segs)
      ensures HasPath(lines, path[0], path[|toks|], Flatten(segs))
    {
      ReadingPath(lines, words, l, intent, types, toks, path, segs);
    }
  }

  // ---------------------------------------------------------------------
  // The generator
  // ---------------------------------------------------------------------

  /** A token arc reads as its token. */
  lemma TokenArcPath(lines: seq<Line>, k: int, words: Vocab, l: Labels, t: string, p: nat, q: nat)
    requires 0 <= k < |lines| && lines[k] == TokenArc(words, l, t, p, q)
    ensures HasPath(lines, p, q, [TokenLabel(words, l, t)])
  {
    var labels := [TokenLabel(words, l, t)];
    assert Walk(lines, [], q, q, labels[1..]);
    assert [k][1..] == [];
    assert Walk(lines, [k], p, q, labels);
  }

  /** The arcs `Chain` writes form a path along `path` reading the tokens. */
  lemma ChainReads(g: Gen, l: Labels, toks: seq<string>, path: seq<nat>)
    requires WellFormed(g, l)
    requires |path| == |toks| + 1
    requires forall i :: 0 <= i < |path| ==> 1 <= path[i] < g.nextState
    ensures HasPath(Chain(g, l, toks, path).lines, path[0], path[|toks|], Pairs(g.words, l, toks))
  {
    var block := TokenArcs(g.words, l, toks, path);
    var lines := g.lines + block;
    forall k | |g.lines| <= k < |g.lines| + |toks|
      ensures var i := k - |g.lines|; lines[k] == TokenArc(g.words, l, toks[i], path[i], path[i + 1])
    {
      assert lines[k] == block[k - |g.lines|];
    }
    ChainPath(lines, |g.lines|, g.words, l, toks, path);
  }

  /** One slot value: fresh states for all but its last token, each with its
      restart arc, then one token arc per value token from `p` to `q`. */
  function AddValue(g: Gen, l: Labels, v: string, p: nat, q: nat): (r: Gen)
    requires WellFormed(g, l)
    requires 1 <= p < g.nextState && 1 <= q < g.nextState
    ensures Extends(g, r, l)
    ensures r.nextState == g.nextState + |ValueTokens(v)| - 1
    ensures |r.lines| == |g.lines| + 2 * |ValueTokens(v)| - 1
  {
    var toks := ValueTokens(v);
    var g1 := Alloc(g, l, |toks| - 1);
    var r := Chain(g1, l, toks, Path(p, g.nextState, |toks|, q));
    r
  }

  /** The arcs of a slot value form a path from `p` to `q` reading its
      tokens. */
  lemma ValuePath(g: Gen, l: Labels, v: string, p: nat, q: nat)
    requires WellFormed(g, l)
    requires 1 <= p < g.nextState && 1 <= q < g.nextState
    ensures HasPath(AddValue(g, l, v, p, q).lines, p, q, ValueLabels(g.words, l, v))
  {
    var toks := ValueTokens(v);
    var g1 := Alloc(g, l, |toks| - 1);
    var path := Path(p, g.nextState, |toks|, q);
    PathWithin(p, g.nextState, |toks|, q);
    ChainReads(g1, l, toks, path);
  }

  /** The first lines a slot value of `n` tokens adds are the restart
      escapes of its `n - 1` intermediate states. */
  lemma ValueRestarts(g: Gen, l: Labels, v: string, p: nat, q: nat)
    requires WellFormed(g, l)
    requires 1 <= p < g.nextState && 1 <= q < g.nextState
    ensures RestartsFrom(AddValue(g, l, v, p, q).lines, |g.lines|, g.nextState, |ValueTokens(v)| - 1, l)
  {
    var toks := ValueTokens(v);
    var g1 := Alloc(g, l, |toks| - 1);
    RestartsGrow(g1.lines, AddValue(g, l, v, p, q).lines, |g.lines|, g.nextState, |toks| - 1, l);
  }

  /** One parallel path per value of a slot type, all from `p` to `q`. */
  function AddValues(g: Gen, l: Labels, values: seq<string>, p: nat, q: nat): (r: Gen)
    requires WellFormed(g, l)
    requires 1 <= p < g.nextState && 1 <= q < g.nextState
    ensures Extends(g, r, l)
    ensures |r.lines| >= |g.lines| + |values|
    decreases |values|
  {
    if |values| == 0 then g
    else
      var g1 := AddValue(g, l, values[0], p, q);
      var r := AddValues(g1, l, values[1..], p, q);
      ExtendsTrans(g, g1, r, l);
      r
  }

  lemma {:induction false} ValuesPaths(g: Gen, l: Labels, values: seq<string>, p: nat, q: nat)
    requires WellFormed(g, l)
    requires 1 <= p < g.nextState && 1 <= q < g.nextState
    ensures forall j :: 0 <= j < |values| ==>
      HasPath(AddValues(g, l, values, p, q).lines, p, q, ValueLabels(g.words, l, values[j]))
    decreases |values|
  {
    if |values| > 0 {
      var g1 := AddValue(g, l, values[0], p, q);
      var r := AddValues(g1, l, values[1..], p, q);
      assert r == AddValues(g, l, values, p, q);
      ValuePath(g, l, values[0], p, q);
      ValuesPaths(g1, l, values[1..], p, q);
      forall j | 0 <= j < |values|
        ensures HasPath(r.lines, p, q, ValueLabels(g.words, l, values[j]))
      {
        if j == 0 {
          PathGrows(g1.lines, r.lines, p, q, ValueLabels(g.words, l, values[0]));
        } else {
          assert values[1..][j - 1] == values[j];
        }
      }
    }
  }

  /** One token of an utterance between `p` and `q`: a slot token expands
      into its type's values, a plain token becomes one arc labelled with its
      id, or with `<unk>` when it is not in the vocabulary. */
  function AddToken(g: Gen, l: Labels, intent: Intent, types: map<string, SlotType>, t: string, p: nat, q: nat): (r: Result<Gen, GenError>)
    requires WellFormed(g, l)
    requires 1 <= p < g.nextState && 1 <= q < g.nextState
    ensures r.Ok? <==> SlotResolves(intent, types, t)
    ensures IsSlot(t) && SlotName(t) !in intent.slots ==> r == Err(UnknownSlot(SlotName(t)))
    ensures IsSlot(t) && SlotName(t) in intent.slots && intent.slots[SlotName(t)] !in types ==>
      r == Err(UnknownType(intent.slots[SlotName(t)]))
    ensures r.Ok? ==> Extends(g, r.value, l)
  {
    if IsSlot(t) then
      var name := SlotName(t);
      if name !in intent.slots then Err(UnknownSlot(name))
      else if intent.slots[name] !in types then Err(UnknownType(intent.slots[name]))
      else Ok(AddValues(g, l, types[intent.slots[name]].values, p, q))
    else
      Ok(Chain(g, l, [t], [p, q]))
  }

  /** Every reading of a token is a path from `p` to `q`. */
  lemma TokenPaths(g: Gen, l: Labels, intent: Intent, types: map<string, SlotType>, t: string, p: nat, q: nat)
    requires WellFormed(g, l)
    requires 1 <= p < g.nextState && 1 <= q < g.nextState
    requires AddToken(g, l, intent, types, t, p, q).Ok?
    ensures forall seg :: Segment(g.words, l, intent, types, t, seg) ==>
      HasPath(AddToken(g, l, intent, types, t, p, q).value.lines, p, q, seg)
  {
    var r := AddToken(g, l, intent, types, t, p, q).value;
    if IsSlot(t) {
      var values := types[intent.slots[SlotName(t)]].values;
      ValuesPaths(g, l, values, p, q);
    } else {
      assert r.lines[|g.lines|] == TokenArcs(g.words, l, [t], [p, q])[0];
      TokenArcPath(r.lines, |g.lines|, g.words, l, t, p, q);
    }
  }

  /** The tokens of an utterance along `path`. */
  function AddTokens(g: Gen, l: Labels, intent: Intent, types: map<string, SlotType>, toks: seq<string>, path: seq<nat>): (r: Result<Gen, GenError>)
    requires WellFormed(g, l)
    requires |path| == |toks| + 1
    requires forall i :: 0 <= i < |path| ==> 1 <= path[i] < g.nextState
    ensures r.Ok? <==> TokensResolve(intent, types, toks)
    ensures r.Ok? ==> Extends(g, r.value, l)
    decreases |toks|
  {
    if |toks| == 0 then Ok(g)
    else
      assert forall i :: 0 <= i < |path| - 1 ==> path[1..][i] == path[i + 1];
      var g1 :- AddToken(g, l, intent, types, toks[0], path[0], path[1]);
      var r :- AddTokens(g1, l, intent, types, toks[1..], path[1..]);
      ExtendsTrans(g, g1, r, l);
      Ok(r)
  }

  lemma {:induction false} TokensPaths(g: Gen, l: Labels, intent: Intent, types: map<string, SlotType>, toks: seq<string>, path: seq<nat>)
    requires WellFormed(g, l)
    requires |path| == |toks| + 1
    requires forall i :: 0 <= i < |path| ==> 1 <= path[i] < g.nextState
    requires AddTokens(g, l, intent, types, toks, path).Ok?
    ensures forall i, seg :: 0 <= i < |toks| && Segment(g.words, l, intent, types, toks[i], seg) ==>
      HasPath(AddTokens(g, l, intent, types, toks, path).value.lines, path[i], path[i + 1], seg)
    decreases |toks|
  {
    if |toks| > 0 {
      var r := AddTokens(g, l, intent, types, toks, path).value;
      var g1 := AddToken(g, l, intent, types, toks[0], path[0], path[1]).value;
      assert forall i :: 0 <= i < |toks| - 1 ==> toks[1..][i] == toks[i + 1];
      assert forall i :: 0 <= i < |path| - 1 ==> path[1..][i] == path[i + 1];
      assert r == AddTokens(g1, l, intent, types, toks[1..], path[1..]).value;
      TokenPaths(g, l, intent, types, toks[0], path[0], path[1]);
      TokensPaths(g1, l, intent, types, toks[1..], path[1..]);
      forall i, seg | 0 <= i < |toks| && Segment(g.words, l, intent, types, toks[i], seg)
        ensures HasPath(r.lines, path[i], path[i + 1], seg)
      {
        if i == 0 {
          PathGrows(g1.lines, r.lines, path[0], path[1], seg);
        } else {
          assert toks[1..][i - 1] == toks[i];
          assert path[1..][i - 1] == path[i] && path[1..][i] == path[i + 1];
        }
      }
    }
  }

  /** One utterance of the intent whose initial state is `q`: its
      intermediate states (one fewer than its tokens) are allocated first,
      each with its restart arc, then the tokens run from `q` to the final
      state through them. */
  function AddUtterance(g: Gen, l: Labels, intent: Intent, types: map<string, SlotType>, utt: string, q: nat): (r: Result<Gen, GenError>)
    requires WellFormed(g, l)
    requires 2 <= q < g.nextState
    ensures r.Ok? <==> TokensResolve(intent, types, Text.Words(utt))
    ensures r.Ok? ==> Extends(g, r.value, l)
  {
    var toks := Text.Words(utt);
    if |toks| == 0 then Ok(g)
    else
      var g1 := Alloc(g, l, |toks| - 1);
      var r :- AddTokens(g1, l, intent, types, toks, Path(q, g.nextState, |toks|, FinalState));
      ExtendsTrans(g, g1, r, l);
      Ok(r)
  }

  /** Every reading of a (non-empty) utterance is a path from `q` to the
      final state. */
  lemma UtterancePaths(g: Gen, l: Labels, intent: Intent, types: map<string, SlotType>, utt: string, q: nat)
    requires WellFormed(g, l)
    requires 2 <= q < g.nextState
    requires AddUtterance(g, l, intent, types, utt, q).Ok?
    ensures forall segs :: |Text.Words(utt)| > 0 && Reading(g.words, l, intent, types, Text.Words(utt), segs) ==>
      HasPath(AddUtterance(g, l, intent, types, utt, q).value.lines, q, FinalState, Flatten(segs))
  {
    var toks := Text.Words(utt);
    if |toks| > 0 {
      var g1 := Alloc(g, l, |toks| - 1);
      var path := Path(q, g.nextState, |toks|, FinalState);
      TokensPaths(g1, l, intent, types, toks, path);
      ReadingPaths(AddTokens(g1, l, intent, types, toks, path).value.lines, g.words, l, intent, types, toks, path);
    }
  }

  /** The first lines an utterance of `n` tokens adds are the restart
      escapes of its `n - 1` intermediate states, the fresh states from
      `g.nextState` on. */
  lemma UtteranceRestarts(g: Gen, l: Labels, intent: Intent, types: map<string, SlotType>, utt: string, q: nat)
    requires WellFormed(g, l)
    requires 2 <= q < g.nextState
    requires AddUtterance(g, l, intent, types, utt, q).Ok?
    ensures RestartsFrom(AddUtterance(g, l, intent, types, utt, q).value.lines, |g.lines|, g.nextState, |Text.Words(utt)| - 1, l)
  {
    var toks := Text.Words(utt);
    if |toks| > 0 {
      var g1 := Alloc(g, l, |toks| - 1);
      var r := AddUtterance(g, l, intent, types, utt, q).value;
      assert r == AddTokens(g1, l, intent, types, toks, Path(q, g.nextState, |toks|, FinalState)).value;
      RestartsGrow(g1.lines, r.lines, |g.lines|, g.nextState, |toks| - 1, l);
    }
  }

  /** All utterances of the intent whose initial state is `q`. */
  function AddUtterances(g: Gen, l: Labels, intent: Intent, types: map<string, SlotType>, utts: seq<string>, q: nat): (r: Result<Gen, GenError>)
    requires WellFormed(g, l)
    requires 2 <= q < g.nextState
    ensures r.Ok? <==> UttsResolve(intent, types, utts)
    ensures r.Ok? ==> Extends(g, r.value, l)
    decreases |utts|
  {
    if |utts| == 0 then Ok(g)
    else
      var g1 :- AddUtterance(g, l, intent, types, utts[0], q);
      var r :- AddUtterances(g1, l, intent, types, utts[1..], q);
      ExtendsTrans(g, g1, r, l);
      Ok(r)
  }

  lemma {:induction false} UtterancesPaths(g: Gen, l: Labels, intent: Intent, types: map<string, SlotType>, utts: seq<string>, q: nat)
    requires WellFormed(g, l)
    requires 2 <= q < g.nextState
    requires AddUtterances(g, l, intent, types, utts, q).Ok?
    ensures forall j, segs ::
      (0 <= j < |utts| && |Text.Words(utts[j])| > 0 && Reading(g.words, l, intent, types, Text.Words(utts[j]), segs)) ==>
      HasPath(AddUtterances(g, l, intent, types, utts, q).value.lines, q, FinalState, Flatten(segs))
    decreases |utts|
  {
    if |utts| > 0 {
      var r := AddUtterances(g, l, intent, types, utts, q).value;
      var g1 := AddUtterance(g, l, intent, types, utts[0], q).value;
      assert r == AddUtterances(g1, l, intent, types, utts[1..], q).value;
      UtterancePaths(g, l, intent, types, utts[0], q);
      UtterancesPaths(g1, l, intent, types, utts[1..], q);
      forall j, segs | 0 <= j < |utts| && |Text.Words(utts[j])| > 0 && Reading(g.words, l, intent, types, Text.Words(utts[j]), segs)
        ensures HasPath(r.lines, q, FinalState, Flatten(segs))
      {
        if j == 0 {
          PathGrows(g1.lines, r.lines, q, FinalState, Flatten(segs));
        } else {
          assert utts[1..][j - 1] == utts[j];
        }
      }
    }
  }

  /** `segs` is a reading of one of the intent's non-empty utterances. */
  predicate Said(words: Vocab, l: Labels, intent: Intent, types: map<string, SlotType>, segs: seq<seq<(int, int)>>) {
    exists j :: 0 <= j < |intent.utts| && |Text.Words(intent.utts[j])| > 0 &&
      Reading(words, l, intent, types, Text.Words(intent.utts[j]), segs)
  }

  lemma PrefixTrans(a: seq<Line>, b: seq<Line>, c: seq<Line>)
    requires Prefix(a, b) && Prefix(b, c)
    ensures Prefix(a, c)
  {
    forall k | 0 <= k < |a|
      ensures c[k] == a[k]
    {
      assert c[k] == b[k];
    }
  }

  /** The intent's word, with the next fresh id, and the intent's own
      initial state, entered from the initial state by an arc reading
      `<eps>` and writing that word. */
  function Enter(g: Gen, l: Labels, w: string): (r: Gen)
    requires WellFormed(g, l)
    ensures WellFormed(r, l)
    ensures r.words == g.words[w := g.nextWord] && r.nextWord == g.nextWord + 1 && r.nextState == g.nextState + 1
    ensures |r.lines| == |g.lines| + 1 && Prefix(g.lines, r.lines)
    ensures r.lines[|g.lines|] == Arc(InitialState, g.nextState, l.eps, g.nextWord, 0)
    ensures Outs(r.lines[2..]) == Outs(g.lines[2..]) + [g.nextWord]
  {
    var arc := Arc(InitialState, g.nextState, l.eps, g.nextWord, 0);
    assert Links([arc]) == [g.nextState] == States(g.nextState, g.nextState + 1);
    assert Outs([arc]) == [g.nextWord];
    assert BodyLines([arc], l, g.nextState + 1);
    AppendBlock(g, l, [arc], g.nextState + 1);
    Gen(g.words[w := g.nextWord], g.nextWord + 1, g.nextState + 1, g.lines + [arc])
  }

  /** One intent: the assertion that its word is new, its entry, then its
      utterances, all from its initial state to the final state. */
  function AddIntent(g: Gen, l: Labels, intent: Intent, types: map<string, SlotType>): (r: Result<Gen, GenError>)
    requires WellFormed(g, l)
    ensures r.Ok? <==> IntentWord(intent) !in g.words && UttsResolve(intent, types, intent.utts)
    ensures IntentWord(intent) in g.words ==> r == Err(IntentWordTaken(IntentWord(intent)))
    ensures r.Ok? ==>
      && WellFormed(r.value, l)
      && r.value.words == g.words[IntentWord(intent) := g.nextWord]
      && r.value.nextWord == g.nextWord + 1
      && r.value.nextState > g.nextState
      && Prefix(g.lines, r.value.lines)
      && Outs(r.value.lines[2..]) == Outs(g.lines[2..]) + [g.nextWord]
  {
    var w := IntentWord(intent);
    if w in g.words then Err(IntentWordTaken(w))
    else
      var g1 := Enter(g, l, w);
      var r :- AddUtterances(g1, l, intent, types, intent.utts, g.nextState);
      PrefixTrans(g.lines, g1.lines, r.lines);
      Ok(r)
  }

  /** A reading of an utterance of the intent, behind the intent's arc, is
      a path from the initial state to the final state. */
  lemma IntentPath(g: Gen, l: Labels, intent: Intent, types: map<string, SlotType>, segs: seq<seq<(int, int)>>)
    requires WellFormed(g, l)
    requires AddIntent(g, l, intent, types).Ok?
    requires Said(g.words[IntentWord(intent) := g.nextWord], l, intent, types, segs)
    ensures HasPath(AddIntent(g, l, intent, types).value.lines, InitialState, FinalState, [(l.eps, g.nextWord)] + Flatten(segs))
  {
    var g1 := Enter(g, l, IntentWord(intent));
    var r := AddIntent(g, l, intent, types).value;
    assert r == AddUtterances(g1, l, intent, types, intent.utts, g.nextState).value;
    UtterancesPaths(g1, l, intent, types, intent.utts, g.nextState);
    assert r.lines[|g.lines|] == g1.lines[|g.lines|];
    var j :| 0 <= j < |intent.utts| && |Text.Words(intent.utts[j])| > 0 &&
      Reading(g1.words, l, intent, types, Text.Words(intent.utts[j]), segs);
    PathFrom(r.lines, |g.lines|, FinalState, Flatten(segs));
  }

  /** The intents in order. */
  function BuildIntents(g: Gen, l: Labels, intents: seq<Intent>, types: map<string, SlotType>): (r: Result<Gen, GenError>)
    requires WellFormed(g, l)
    ensures r.Ok? <==> Fresh(g.words.Keys, intents) && IntentsResolve(intents, types)
    ensures r.Ok? ==>
      && WellFormed(r.value, l)
      && r.value.words == Enrol(g.words, g.nextWord, intents)
      && r.value.nextWord == g.nextWord + |intents|
      && Prefix(g.lines, r.value.lines)
      && Outs(r.value.lines[2..]) == Outs(g.lines[2..]) + Ids(g.nextWord, |intents|)
    decreases |intents|
  {
    if |intents| == 0 then
      IdsAfter(Outs(g.lines[2..]), g.nextWord);
      Ok(g)
    else
      assert g.words[IntentWord(intents[0]) := g.nextWord].Keys == g.words.Keys + {IntentWord(intents[0])};
      var g1 :- AddIntent(g, l, intents[0], types);
      var r :- BuildIntents(g1, l, intents[1..], types);
      BuildStep(g, g1, r, intents);
      Ok(r)
  }

  /** The step of `BuildIntents`: the first intent's additions followed by
      the rest's are the additions of all of them. */
  lemma BuildStep(g: Gen, g1: Gen, r: Gen, intents: seq<Intent>)
    requires |intents| > 0
    requires g1.words == g.words[IntentWord(intents[0]) := g.nextWord] && g1.nextWord == g.nextWord + 1
    requires Prefix(g.lines, g1.lines) && |g.lines| >= 2
    requires Outs(g1.lines[2..]) == Outs(g.lines[2..]) + [g.nextWord]
    requires r.words == Enrol(g1.words, g1.nextWord, intents[1..]) && r.nextWord == g1.nextWord + |intents[1..]|
    requires Prefix(g1.lines, r.lines)
    requires Outs(r.lines[2..]) == Outs(g1.lines[2..]) + Ids(g1.nextWord, |intents[1..]|)
    ensures r.words == Enrol(g.words, g.nextWord, intents) && r.nextWord == g.nextWord + |intents|
    ensures Prefix(g.lines, r.lines)
    ensures Outs(r.lines[2..]) == Outs(g.lines[2..]) + Ids(g.nextWord, |intents|)
  {
    PrefixTrans(g.lines, g1.lines, r.lines);
    IdsStep(Outs(g.lines[2..]), Outs(g1.lines[2..]), Outs(r.lines[2..]), g.nextWord, g1.nextWord, |intents[1..]|, |intents|);
  }

  lemma WordsForCons(words: Vocab, next: int, intents: seq<Intent>, k: int, words1: Vocab, next1: int)
    requires 0 <= k < |intents|
    requires words1 == words[IntentWord(intents[0]) := next] && next1 == next + 1
    ensures k == 0 ==> WordsFor(words, next, intents, k) == words1
    ensures k > 0 ==> WordsFor(words, next, intents, k) == WordsFor(words1, next1, intents[1..], k - 1)
  {
    assert intents[..k + 1][0] == intents[0];
    assert intents[..k + 1][1..] == intents[1..][..k];
    if k == 0 {
      var w := words[IntentWord(intents[0]) := next];
      assert intents[..k + 1][1..] == [];
      assert Enrol(w, next + 1, []) == w;
      assert Enrol(words, next, intents[..1]) == Enrol(w, next + 1, intents[..1][1..]);
    }
  }

  /** A reading of intent `k`, behind its arc writing `id`, is a path of
      the graph. */
  lemma {:induction false} IntentPathAt(g: Gen, l: Labels, intents: seq<Intent>, types: map<string, SlotType>, k: nat,
                                        segs: seq<seq<(int, int)>>, lines: seq<Line>, id: int)
    requires WellFormed(g, l)
    requires BuildIntents(g, l, intents, types).Ok? && lines == BuildIntents(g, l, intents, types).value.lines
    requires k < |intents| && id == g.nextWord + k
    requires Said(WordsFor(g.words, g.nextWord, intents, k), l, intents[k], types, segs)
    ensures HasPath(lines, InitialState, FinalState, [(l.eps, id)] + Flatten(segs))
    decreases k
  {
    var g1 := AddIntent(g, l, intents[0], types).value;
    assert lines == BuildIntents(g1, l, intents[1..], types).value.lines;
    WordsForCons(g.words, g.nextWord, intents, k, g1.words, g1.nextWord);
    if k == 0 {
      FirstIntentPath(g, l, intents, types, segs, lines, id);
    } else {
      assert intents[1..][k - 1] == intents[k];
      IntentPathAt(g1, l, intents[1..], types, k - 1, segs, lines, id);
    }
  }

  lemma FirstIntentPath(g: Gen, l: Labels, intents: seq<Intent>, types: map<string, SlotType>,
                        segs: seq<seq<(int, int)>>, lines: seq<Line>, id: int)
    requires WellFormed(g, l)
    requires BuildIntents(g, l, intents, types).Ok? && lines == BuildIntents(g, l, intents, types).value.lines
    requires |intents| > 0 && id == g.nextWord
    requires Said(g.words[IntentWord(intents[0]) := g.nextWord], l, intents[0], types, segs)
    ensures HasPath(lines, InitialState, FinalState, [(l.eps, id)] + Flatten(segs))
  {
    var g1 := AddIntent(g, l, intents[0], types).value;
    assert lines == BuildIntents(g1, l, intents[1..], types).value.lines;
    IntentPath(g, l, intents[0], types, segs);
    PathGrows(g1.lines, lines, InitialState, FinalState, [(l.eps, id)] + Flatten(segs));
  }

  /** The opening of the graph: `[restart]` takes the first id above the
      vocabulary, the initial state gets its restart self-loop and the final
      state weight 0. */
  function Start(words: Vocab): (r: Result<(Gen, Labels), GenError>)
    ensures r.Ok? <==> Ready(words)
    ensures |words| == 0 ==> r == Err(EmptyVocabulary)
    ensures |words| > 0 && "<eps>" !in words ==> r == Err(MissingSymbol("<eps>"))
    ensures |words| > 0 && "<eps>" in words && "<unk>" !in words ==> r == Err(MissingSymbol("<unk>"))
    ensures r.Ok? ==>
      && r.value.1 == LabelsOf(words)
      && WellFormed(r.value.0, r.value.1)
      && r.value.0.words == words[RestartWord := r.value.1.restart]
      && r.value.0.nextWord == r.value.1.restart + 1
      && |r.value.0.lines| == 2
  {
    if |words| == 0 then Err(EmptyVocabulary)
    else if "<eps>" !in words then Err(MissingSymbol("<eps>"))
    else if "<unk>" !in words then Err(MissingSymbol("<unk>"))
    else
      var l := LabelsOf(words);
      var g := Gen(words[RestartWord := l.restart], l.restart + 1, 2, [RestartArc(InitialState, l), Final(FinalState, 0)]);
      assert g.lines[2..] == [];
      Ok((g, l))
  }

  /** The whole graph and the extended vocabulary for a vocabulary, the slot
      types and the intents (in the order they are listed). */
  function Generate(words: Vocab, types: map<string, SlotType>, intents: seq<Intent>): (r: Result<Gen, GenError>)
    ensures r.Ok? <==>
      Ready(words) && Fresh(words.Keys + {RestartWord}, intents) && IntentsResolve(intents, types)
    ensures |words| == 0 ==> r == Err(EmptyVocabulary)
    ensures |words| > 0 && "<eps>" !in words ==> r == Err(MissingSymbol("<eps>"))
    ensures |words| > 0 && "<eps>" in words && "<unk>" !in words ==> r == Err(MissingSymbol("<unk>"))
    ensures r.Ok? ==>
      && WellFormed(r.value, LabelsOf(words))
      && r.value.words == Enrol(words[RestartWord := LabelsOf(words).restart], LabelsOf(words).restart + 1, intents)
      && Outs(r.value.lines[2..]) == Ids(LabelsOf(words).restart + 1, |intents|)
  {
    var (g0, l) :- Start(words);
    assert g0.words.Keys == words.Keys + {RestartWord};
    assert Outs(g0.lines[2..]) == [];
    BuildIntents(g0, l, intents, types)
  }

  /** The extended vocabulary `out`: every word of words.txt other than
      `[restart]` keeps its id, all of them below `top`; `[restart]` takes
      `top` and the intent words the ids after it, in order; no other word
      is added. */
  predicate Renumbered(words: Vocab, top: int, intents: seq<Intent>, out: Vocab) {
    && (forall w :: w in words ==> words[w] < top)
    && (forall w :: w in words && w != RestartWord ==> w in out && out[w] == words[w])
    && RestartWord in out && out[RestartWord] == top
    && (forall k :: 0 <= k < |intents| ==> IntentWord(intents[k]) in out && out[IntentWord(intents[k])] == top + 1 + k)
    && (forall w :: w in out ==> w in words || w == RestartWord || exists k :: 0 <= k < |intents| && w == IntentWord(intents[k]))
  }

  /** The vocabulary `Generate` writes out extends words.txt with
      `[restart]` at the first id above it and the intent words after. */
  lemma FreshWordIds(words: Vocab, types: map<string, SlotType>, intents: seq<Intent>)
    requires Generate(words, types, intents).Ok?
    ensures Ready(words)
    ensures Renumbered(words, LabelsOf(words).restart, intents, Generate(words, types, intents).value.words)
  {
    var top := LabelsOf(words).restart;
    var out := Generate(words, types, intents).value.words;
    GenerateWords(words, types, intents);
    EnrolAfter(words, top, intents, out);
  }

  lemma GenerateWords(words: Vocab, types: map<string, SlotType>, intents: seq<Intent>)
    requires Generate(words, types, intents).Ok?
    ensures Ready(words) && Fresh(words.Keys + {RestartWord}, intents)
    ensures Generate(words, types, intents).value.words == Enrol(words[RestartWord := LabelsOf(words).restart], LabelsOf(words).restart + 1, intents)
  {
  }

  lemma EnrolAfter(words: Vocab, top: int, intents: seq<Intent>, out: Vocab)
    requires forall w :: w in words ==> words[w] < top
    requires Fresh(words.Keys + {RestartWord}, intents)
    requires out == Enrol(words[RestartWord := top], top + 1, intents)
    ensures Renumbered(words, top, intents, out)
  {
    var w0 := words[RestartWord := top];
    assert w0.Keys == words.Keys + {RestartWord};
    EnrolIds(w0, top + 1, intents);
  }

  /** Every reading of every utterance of intent `k`, behind the arc that
      writes the intent's word (the `k`-th id after `[restart]`), is a path of the graph from the initial to
      the final state, the words being read with the vocabulary in force
      when the intent is compiled. */
  lemma GrammarAccepts(words: Vocab, types: map<string, SlotType>, intents: seq<Intent>, k: nat, segs: seq<seq<(int, int)>>)
    requires Generate(words, types, intents).Ok? && Ready(words) && k < |intents|
    requires Said(WordsFor(words[RestartWord := LabelsOf(words).restart], LabelsOf(words).restart + 1, intents, k), LabelsOf(words), intents[k], types, segs)
    ensures HasPath(Generate(words, types, intents).value.lines, InitialState, FinalState,
                    [(LabelsOf(words).eps, Ids(LabelsOf(words).restart + 1, |intents|)[k])] + Flatten(segs))
  {
    var l := LabelsOf(words);
    var g0 := Start(words).value.0;
    GenerateBuilds(words, types, intents);
    IntentPathAt(g0, l, intents, types, k, segs, Generate(words, types, intents).value.lines, Ids(l.restart + 1, |intents|)[k]);
  }

  /** `Generate` is `BuildIntents` from the opening `Start` makes. */
  lemma GenerateBuilds(words: Vocab, types: map<string, SlotType>, intents: seq<Intent>)
    requires Generate(words, types, intents).Ok?
    ensures Start(words).Ok?
    ensures var g0 := Start(words).value.0;
      && WellFormed(g0, LabelsOf(words))
      && g0.words == words[RestartWord := LabelsOf(words).restart]
      && g0.nextWord == LabelsOf(words).restart + 1
      && BuildIntents(g0, LabelsOf(words), intents, types).Ok?
      && Generate(words, types, intents).value.lines == BuildIntents(g0, LabelsOf(words), intents, types).value.lines
  {
  }

  lemma {:induction false} LinksHas(ls: seq<Line>, s: nat)
    requires s in Links(ls)
    ensures exists k :: 0 <= k < |ls| && Link(ls[k]) == [s]
    decreases |ls|
  {
    if s in Link(ls[0]) {
      assert Link(ls[0]) == [s];
    } else {
      LinksHas(ls[1..], s);
      var k :| 0 <= k < |ls[1..]| && Link(ls[1..][k]) == [s];
      assert ls[1..][k] == ls[k + 1];
    }
  }

  /** Every state other than the initial and the final one is joined to the
      initial state: it is an intent's initial state, entered from the
      initial state by an arc reading `<eps>`, or it has its escape arc back
      to the initial state reading `<unk>` and writing `[restart]`. */
  lemma Escapes(g: Gen, l: Labels, s: nat)
    requires WellFormed(g, l) && 2 <= s < g.nextState
    ensures exists k :: (2 <= k < |g.lines| &&
      (|| g.lines[k] == Arc(s, InitialState, l.unk, l.restart, 0)
       || (g.lines[k].Arc? && g.lines[k].src == InitialState && g.lines[k].dst == s && g.lines[k].ilabel == l.eps && g.lines[k].weight == 0)))
  {
    assert States(2, g.nextState)[s - 2] == s;
    LinksHas(g.lines[2..], s);
    var k :| 0 <= k < |g.lines[2..]| && Link(g.lines[2..][k]) == [s];
    BodyLinesAll(g.lines[2..], l, g.nextState);
    assert BodyLine(g.lines[2..][k], l, g.nextState);
    assert g.lines[2..][k] == g.lines[k + 2];
  }

  /** The first two lines are the initial state's `<unk>:[restart]`
      self-loop and the final state with weight 0; every other line is an
      arc, so state 1 is the only final state. */
  lemma Header(g: Gen, l: Labels)
    requires WellFormed(g, l)
    ensures g.lines[0] == Arc(InitialState, InitialState, l.unk, l.restart, 0)
    ensures g.lines[1] == Final(FinalState, 0)
    ensures forall k :: 0 <= k < |g.lines| && g.lines[k].Final? ==> k == 1
  {
    BodyLinesAll(g.lines[2..], l, g.nextState);
    forall k | 2 <= k < |g.lines|
      ensures g.lines[k].Arc?
    {
      assert g.lines[k] == g.lines[2..][k - 2];
    }
  }

  lemma LinksSplit(ls: seq<Line>, k: int)
    requires 0 <= k < |ls|
    ensures Links(ls) == Links(ls[..k]) + Link(ls[k]) + Links(ls[k + 1..])
  {
    var rest := ls[k..];
    assert ls == ls[..k] + rest;
    assert rest[0] == ls[k] && rest[1..] == ls[k + 1..];
    assert Links(rest) == Link(ls[k]) + Links(ls[k + 1..]);
    LinksOfConcat(ls[..k], rest);
  }

  /** Two lines that each join a state to the initial state put their
      states at two different positions of `Links`. */
  lemma LinksTwice(ls: seq<Line>, a: int, b: int)
    requires 0 <= a < b < |ls| && Link(ls[a]) != [] && Link(ls[b]) != []
    ensures exists p, q :: 0 <= p < q < |Links(ls)| && Links(ls)[p] == Link(ls[a])[0] && Links(ls)[q] == Link(ls[b])[0]
  {
    LinksSplit(ls, b);
    LinksSplit(ls[..b], a);
    assert ls[..b][a] == ls[a];
    var x1 := Links(ls[..b][..a]);
    var x2 := Links(ls[..b][a + 1..]);
    var all := Links(ls);
    assert all == x1 + Link(ls[a]) + x2 + Link(ls[b]) + Links(ls[b + 1..]);
    assert all[|x1|] == Link(ls[a])[0];
    assert all[|x1| + 1 + |x2|] == Link(ls[b])[0];
  }

  /** No state is joined to the initial state by two lines: with `Escapes`,
      every state other than the initial and final ones has exactly one
      such line, its restart escape or its intent's entry arc. */
  lemma JoinedOnce(g: Gen, l: Labels, i: int, j: int)
    requires WellFormed(g, l) && 2 <= i < j < |g.lines|
    ensures Link(g.lines[i]) == [] || Link(g.lines[i]) != Link(g.lines[j])
  {
    var ls := g.lines[2..];
    assert ls[i - 2] == g.lines[i] && ls[j - 2] == g.lines[j];
    if Link(ls[i - 2]) != [] && Link(ls[j - 2]) != [] {
      LinksTwice(ls, i - 2, j - 2);
    }
  }
}

=== FILE: protocol.dfy ===
/** handle_message and init of kaldi-js.cc: the worker's control protocol
    around the session. The worker holds the global `asr` variable: null
    before the first Init, an object without decoder when Init stopped at
    the argument check, or a fully built session. */
module Protocol {
  import opened Results
  import opened AsrSession
  import Transcript

  type Positive = d: int | d > 0 witness 1

  /** chunk_length_secs as the exact fraction `num / den` of a second. */
  datatype Seconds = Seconds(num: int, den: Positive)

  /** The Init message as far as the model needs it: the number of
      positional arguments ParseOptions found, whether every engine object
      init builds constructs (the model, graph and symbol table, and the
      feature pipeline and resampler ResetDecoder builds from the message's
      sample_frequency), the engine's native rate, the chunk length and the
      loaded symbol table. */
  datatype InitConfig = InitConfig(
    positional: nat,
    loads: bool,
    rate: nat,
    chunkLength: Seconds,
    symbols: Transcript.SymbolTable)

  /** A client message after protobuf parsing. `Audio` carries the
      message's samples as the resampler and Scale(kWaveSampleMax) turn
      them out; `Unhandled` is a message with none of the four fields set;
      `Unparsable` is one ParseFromString rejects. */
  datatype Message =
    | Init(config: InitConfig)
    | Start
    | Audio(samples: seq<Sample>)
    | Cancel
    | Unhandled
    | Unparsable

  datatype Worker = NoAsr | Unloaded(enabled: bool) | Loaded(session: Session)

  predicate WorkerValid(w: Worker) {
    w.Loaded? ==> w.session.Valid()
  }

  function Abs(x: int): nat {
    if x < 0 then -x else x
  }

  /** C++ truncation toward zero of `a / b` (Dafny's `/` rounds down). */
  function TruncDiv(a: int, b: int): (r: int)
    requires b > 0
    ensures Abs(r) * b <= Abs(a) < Abs(r) * b + b
    ensures r > 0 ==> a > 0
    ensures r < 0 ==> a < 0
  {
    if a >= 0 then
      DivBounds(a, b);
      a / b
    else
      DivBounds(-a, b);
      -((-a) / b)
  }

  lemma DivBounds(a: nat, b: int)
    requires b > 0
    ensures 0 <= a / b
    ensures (a / b) * b <= a < (a / b) * b + b
    ensures a == 0 ==> a / b == 0
  {
    var q, m := a / b, a % b;
    assert a == q * b + m;
  }

  /** The chunk size init computes: int32(asr_samp_freq *
      chunk_length_secs), truncated toward zero, with 0 raised to 1. */
  function ChunkCapacity(rate: nat, len: Seconds): (r: int)
    ensures r != 0
    ensures r >= 1 <==> rate * len.num > -(len.den as int)
    ensures r >= 2 ==> r * len.den <= rate * len.num < r * len.den + len.den
    ensures r == 1 ==> -(len.den as int) < rate * len.num < 2 * len.den
    ensures r < 0 ==> -r * len.den <= -(rate * len.num) < -r * len.den + len.den
  {
    var a := rate * len.num;
    var t := TruncDiv(a, len.den);
    TruncBounds(a, len.den, t);
    if t == 0 then 1 else t
  }

  /** What the truncated quotient `t` of `a` by `b` says about `a`. */
  lemma TruncBounds(a: int, b: int, t: int)
    requires b > 0
    requires Abs(t) * b <= Abs(a) < Abs(t) * b + b
    requires t > 0 ==> a > 0
    requires t < 0 ==> a < 0
    ensures t >= 1 ==> t * b <= a < t * b + b
    ensures t == 0 ==> -b < a < b
    ensures t < 0 ==> -t * b <= -a < -t * b + b
  {
    if t == 0 {
      assert Abs(t) * b == 0;
    }
  }

  /** The session init builds: an empty chunk of the computed capacity,
      counters at zero (the Asr object is value-initialised), audio
      disabled. */
  function FreshSession(capacity: nat, cfg: InitConfig): (r: Session)
    requires capacity >= 1
    ensures r.Valid() && !r.enabled && !r.endpointDetected && r.fed == [] && r.posted == []
  {
    Session(capacity, [], 0, 0, cfg.rate, false, false, cfg.symbols, [], [])
  }

  /** init: with other than two positional arguments the usage is printed
      and the fresh Asr is left without decoder; a model or graph that does
      not load is fatal; a negative chunk size fails the buffer resize. */
  function InitWorker(cfg: InitConfig): (r: Result<Worker, Fault>)
    ensures cfg.positional != 2 ==> r == Ok(Unloaded(false))
    ensures cfg.positional == 2 ==>
      (r.Ok? <==> cfg.loads && ChunkCapacity(cfg.rate, cfg.chunkLength) >= 1)
    ensures r.Ok? && r.value.Loaded? ==>
      var s := r.value.session;
      && s.Valid() && s.capacity == ChunkCapacity(cfg.rate, cfg.chunkLength)
      && s.chunk == [] && s.totalLength == 0 && s.lastOutput == 0
      && !s.enabled && !s.endpointDetected && s.rate == cfg.rate && s.symbols == cfg.symbols
    ensures cfg.positional == 2 && r.Ok? ==> r.value.Loaded?
    ensures cfg.positional == 2 && !cfg.loads ==> r == Err(LoadFailure)
    ensures cfg.positional == 2 && cfg.loads && ChunkCapacity(cfg.rate, cfg.chunkLength) < 0 ==>
      r == Err(BadChunkLength)
    ensures r.Ok? ==> WorkerValid(r.value)
  {
    if cfg.positional != 2 then Ok(Unloaded(false))
    else if !cfg.loads then Err(LoadFailure)
    else
      var cap := ChunkCapacity(cfg.rate, cfg.chunkLength);
      if cap < 0 then Err(BadChunkLength)
      else Ok(Loaded(FreshSession(cap, cfg)))
  }

  /** handle_message: route one message. A message that does not parse, or
      carries none of the four fields, is logged and changes nothing. */
  function HandleMessage(w: Worker, m: Message, o: Oracle): (r: Result<Worker, Fault>)
    requires WorkerValid(w)
    ensures r.Ok? ==> WorkerValid(r.value)
    ensures m.Unparsable? || m.Unhandled? ==> r == Ok(w)
    ensures w.NoAsr? && (m.Start? || m.Audio? || m.Cancel?) ==> r == Err(NullAsr)
    ensures m.Init? ==> r == InitWorker(m.config)
    ensures w.Loaded? && m.Start? ==> r == Ok(Loaded(w.session.(enabled := true)))
    ensures w.Loaded? && m.Audio? ==>
      var p := ProcessAudio(w.session, o, m.samples);
      && (p.Ok? ==> r == Ok(Loaded(p.value)))
      && (p.Err? ==> r == Err(p.error))
    ensures w.Loaded? && m.Cancel? ==> r == Ok(Loaded(Reset(w.session)))
    ensures w.Unloaded? && m.Start? ==> r == Ok(Unloaded(true))
    ensures w.Unloaded? && m.Audio? ==> r == (if w.enabled then Err(MissingDecoder) else Ok(w))
    ensures w.Unloaded? && m.Cancel? ==> r == Err(MissingDecoder)
  {
    match m
    case Unparsable => Ok(w)
    case Unhandled => Ok(w)
    case Init(cfg) => InitWorker(cfg)
    case Start =>
      (match w
       case NoAsr => Err(NullAsr)
       case Unloaded(_) => Ok(Unloaded(true))
       case Loaded(s) => Ok(Loaded(s.(enabled := true))))
    case Audio(xs) =>
      (match w
       case NoAsr => Err(NullAsr)
       case Unloaded(enabled) => if enabled then Err(MissingDecoder) else Ok(w)
       case Loaded(s) =>
         var s' :- ProcessAudio(s, o, xs);
         Ok(Loaded(s')))
    case Cancel =>
      (match w
       case NoAsr => Err(NullAsr)
       case Unloaded(_) => Err(MissingDecoder)
       case Loaded(s) => Ok(Loaded(Reset(s))))
  }

  /** A sequence of messages, each with the oracle answering during it,
      handled in order; the first fatal error ends the worker. */
  function Run(w: Worker, steps: seq<(Message, Oracle)>): (r: Result<Worker, Fault>)
    requires WorkerValid(w)
    ensures r.Ok? ==> WorkerValid(r.value)
    decreases |steps|
  {
    if |steps| == 0 then Ok(w)
    else
      var w1 :- HandleMessage(w, steps[0].0, steps[0].1);
      Run(w1, steps[1..])
  }

  /** Start only sets `enabled`, so a second Start changes nothing. */
  lemma StartIdempotent(w: Worker, o1: Oracle, o2: Oracle)
    requires WorkerValid(w)
    requires HandleMessage(w, Start, o1).Ok?
    ensures var w1 := HandleMessage(w, Start, o1).value;
      && HandleMessage(w1, Start, o2) == Ok(w1)
      && (w.Loaded? ==> w1 == Loaded(w.session.(enabled := true)))
  {
  }

  /** Cancel (ResetDecoder) empties the chunk, puts the output tick back at
      0 and clears both flags, but keeps total_length: the count of samples
      decoded spans every utterance of the session. */
  lemma CancelResets(s: Session, o: Oracle)
    requires s.Valid()
    ensures var r := HandleMessage(Loaded(s), Cancel, o);
      && r.Ok? && r.value.Loaded?
      && r.value.session.chunk == [] && r.value.session.ChunkValid() == 0
      && r.value.session.lastOutput == 0
      && !r.value.session.enabled && !r.value.session.endpointDetected
      && r.value.session.totalLength == s.totalLength
      && r.value.session.fed == s.fed && r.value.session.posted == s.posted
  {
  }

  /** Because total_length survives Cancel while the tick restarts at 0,
      once more than a second has been decoded in all, the first chunk
      decoded after a Cancel always runs the cadence branch and queries the
      endpoint detector. */
  lemma CadenceAfterCancel(s: Session, o: Oracle, xs: seq<Sample>)
    requires s.Valid() && s.totalLength > s.rate
    requires |xs| >= s.capacity
    ensures var c := HandleMessage(Loaded(s), Cancel, o).value.session.(enabled := true);
      && c.Valid()
      && CopyStep(c, o, xs).decodes == 1
      && CopyStep(c, o, xs).session.lastOutput == s.rate
      && CopyStep(c, o, xs).session.endpointDetected == o.endpointAt(s.totalLength + s.capacity)
  {
  }

  /** Audio while disabled is dropped: no state changes and nothing reaches
      the engine. */
  lemma DisabledAudioIgnored(w: Worker, xs: seq<Sample>, o: Oracle)
    requires WorkerValid(w) && !w.NoAsr?
    requires w.Loaded? ==> !w.session.enabled
    requires w.Unloaded? ==> !w.enabled
    ensures HandleMessage(w, Audio(xs), o) == Ok(w)
  {
  }

  /** Start does not clear endpoint_detected: after an utterance was
      finalized, Start followed by Audio hands the engine nothing, leaves
      the buffer alone and posts the transcript a second time. */
  lemma RestartReposts(s: Session, xs: seq<Sample>, o1: Oracle, o2: Oracle)
    requires s.Valid() && s.endpointDetected
    requires Run(Loaded(s), [(Start, o1), (Audio(xs), o2)]).Ok?
    ensures var w := Run(Loaded(s), [(Start, o1), (Audio(xs), o2)]).value;
      && w.Loaded?
      && w.session.fed == s.fed && w.session.chunk == s.chunk
      && w.session.totalLength == s.totalLength
      && w.session.endpointDetected && !w.session.enabled
      && Payload(s.(enabled := true), o2).Ok?
      && w.session.posted == s.posted + [Payload(s.(enabled := true), o2).value]
  {
    var s1 := s.(enabled := true);
    var steps := [(Start, o1), (Audio(xs), o2)];
    assert HandleMessage(Loaded(s), Start, o1) == Ok(Loaded(s1));
    assert Run(Loaded(s), steps) == Run(Loaded(s1), steps[1..]);
    assert steps[1..] == [(Audio(xs), o2)];
    assert Fill(s1, o2, xs) == Filled(s1, xs, 0);
    var a := HandleMessage(Loaded(s1), Audio(xs), o2);
    assert Run(Loaded(s1), steps[1..]) == a by {
      assert steps[1..][1..] == [];
    }
    var pa := ProcessAudio(s1, o2, xs);
    assert a.Ok? ==> pa.Ok? && a.value == Loaded(pa.value);
  }

  /** Once an endpoint is detected, no further sample reaches the engine,
      whatever Start, Audio or ignored messages follow, until Cancel or
      Init. */
  lemma {:induction false} EndpointLatches(s: Session, steps: seq<(Message, Oracle)>)
    requires s.Valid() && s.endpointDetected
    requires forall i | 0 <= i < |steps| :: !steps[i].0.Cancel? && !steps[i].0.Init?
    requires Run(Loaded(s), steps).Ok?
    ensures var w := Run(Loaded(s), steps).value;
      && w.Loaded? && w.session.endpointDetected
      && w.session.fed == s.fed && w.session.chunk == s.chunk
      && w.session.totalLength == s.totalLength
    decreases |steps|
  {
    if |steps| > 0 {
      var m, o := steps[0].0, steps[0].1;
      var w1 := HandleMessage(Loaded(s), m, o).value;
      if m.Audio? && s.enabled {
        assert Fill(s, o, m.samples) == Filled(s, m.samples, 0);
      }
      assert w1.Loaded? && w1.session.endpointDetected && w1.session.fed == s.fed
        && w1.session.chunk == s.chunk && w1.session.totalLength == s.totalLength;
      EndpointLatches(w1.session, steps[1..]);
    }
  }

  /** The scenario of a 16 kHz engine with the default 0.18 s chunk: the
      chunk holds 2880 samples, and one Audio message of 5760 samples with
      no endpoint decodes exactly two chunks and leaves the buffer empty. */
  lemma TwoChunks(symbols: Transcript.SymbolTable, xs: seq<Sample>, o: Oracle)
    requires |xs| == 5760
    requires forall t :: !o.endpointAt(t)
    ensures var cfg := InitConfig(2, true, 16000, Seconds(18, 100), symbols);
      && ChunkCapacity(16000, Seconds(18, 100)) == 2880
      && var r := Run(NoAsr, [(Init(cfg), o), (Start, o), (Audio(xs), o)]);
      && r.Ok? && r.value.Loaded?
      && r.value.session.fed == xs && r.value.session.chunk == []
      && r.value.session.totalLength == 5760 && r.value.session.posted == []
  {
    var cfg := InitConfig(2, true, 16000, Seconds(18, 100), symbols);
    assert TruncDiv(16000 * 18, 100) == 2880;
    var s0 := FreshSession(2880, cfg);
    assert InitWorker(cfg) == Ok(Loaded(s0));
    var s1 := s0.(enabled := true);
    FillWithoutEndpoint(s1, o, xs);
    var f := Fill(s1, o, xs);
    assert f.decodes == 2;
    assert [] + xs == xs;
    assert ProcessAudio(s1, o, xs) == Ok(f.session);
    var steps := [(Init(cfg), o), (Start, o), (Audio(xs), o)];
    assert Run(NoAsr, steps) == Run(Loaded(s0), steps[1..]);
    assert steps[1..] == [(Start, o), (Audio(xs), o)];
    assert Run(Loaded(s0), steps[1..]) == Run(Loaded(s1), steps[1..][1..]);
    assert steps[1..][1..] == [(Audio(xs), o)];
    assert Run(Loaded(s1), steps[1..][1..]) == Ok(Loaded(f.session)) by {
      assert steps[1..][1..][1..] == [];
    }
  }
}

=== FILE: results.dfy ===
/** The outcome of an operation of the model that can fail: a value, or the
    error the source raises (a fatal KALDI_ERR, a Python exception).
    Usable with `:-`. */
module Results {

  datatype Result<+T, +E> = Ok(value: T) | Err(error: E) {

    predicate IsFailure() {
      Err?
    }

    function PropagateFailure<U>(): Result<U, E>
      requires Err?
    {
      Err(error)
    }

    function Extract(): T
      requires Ok?
    {
      value
    }
  }
}

=== FILE: session.dfy ===
/** The streaming session of kaldi-js.cc (class Asr): the fixed-capacity
    chunk the resampled audio is copied into, the per-chunk decode with its
    one-second output cadence, endpoint-triggered finalization and the
    decoder reset.

    Everything the Kaldi engine computes is an oracle (see `Oracle`); the
    resampler and the amplitude scaling are left out, the model receiving
    their output as an opaque sample sequence. What the source hands to the
    engine and what it posts to the page are recorded in the `fed` and
    `posted` logs, which the logic itself never reads. */
module AsrSession {
  import opened Results
  import Transcript

  /** A resampled, scaled sample; the model never inspects its value. */
  type Sample = real

  type WordId = Transcript.WordId

  /** Finalization posts the best transcript only when the decoder's final
      relative cost is at most this. */
  const CostThreshold: real := 8.0

  /** The fatal conditions of kaldi-js.cc: a message reaching the global
      `asr` before any Init, a decoder that Init never built, a model or
      graph that fails to load, a negative chunk length rejected by the
      vector resize, and a word id missing from the symbol table. */
  datatype Fault = NullAsr | MissingDecoder | LoadFailure | BadChunkLength | SymbolLookup(id: WordId)

  /** What the engine answers during one message: EndpointDetected when it
      has consumed `t` samples in all (`endpointAt(t)`), FinalRelativeCost,
      and the best path at finalization. */
  datatype Oracle = Oracle(endpointAt: int -> bool, finalCost: real, best: Transcript.BestPath)

  /** The fields of Asr the session logic reads and writes. `chunk` is the
      valid prefix `chunk(0 .. chunk_valid)` of the fixed-size buffer of
      `capacity` samples; `rate` is the engine's native sample rate
      (asr_samp_freq, samples per second). */
  datatype Session = Session(
    capacity: nat,
    chunk: seq<Sample>,
    totalLength: int,
    lastOutput: int,
    rate: nat,
    enabled: bool,
    endpointDetected: bool,
    symbols: Transcript.SymbolTable,
    fed: seq<Sample>,
    posted: seq<string>)
  {
    /** chunk_valid */
    function ChunkValid(): nat {
      |chunk|
    }

    /** The representation invariant kept between messages. */
    predicate Valid() {
      && capacity >= 1
      && |chunk| < capacity
      && CountersValid()
      && (endpointDetected ==> chunk == [])
    }

    /** total_length counts every sample handed to the engine, and the
        output tick is a whole number of seconds not beyond it. */
    predicate CountersValid() {
      && 0 <= lastOutput <= totalLength
      && totalLength == |fed|
      && OnTick(lastOutput, rate)
    }

    /** The once-per-second test of DecodeChunk, for the chunk about to be
        decoded: more than a second of audio since the last output tick. */
    predicate CadenceDue() {
      totalLength + |chunk| - lastOutput > rate
    }
  }

  /** `t` is a whole, non-negative number of ticks of `rate` samples. */
  predicate OnTick(t: int, rate: nat)
    decreases if t < 0 then 0 else t
  {
    if t == 0 then true
    else if rate == 0 || t < rate then false
    else OnTick(t - rate, rate)
  }

  lemma MulSucc(q: int, b: int)
    ensures (q + 1) * b == q * b + b
  {
  }

  lemma MulSub(x: int, y: int, b: int)
    ensures (x - y) * b == x * b - y * b
  {
  }

  lemma MulAtLeast(x: int, b: int)
    requires x >= 1 && b > 0
    ensures x * b >= b
  {
    var y := x - 1;
    assert x * b == y * b + b by { MulSucc(y, b); }
    assert y * b >= 0;
  }

  /** Euclidean division is unique: a quotient and remainder in range are
      the ones `/` and `%` produce. */
  lemma DivModUnique(a: int, q: int, m: int, b: int)
    requires b > 0 && a == q * b + m && 0 <= m < b
    ensures q == a / b && m == a % b
  {
    var q0, m0 := a / b, a % b;
    assert a == q0 * b + m0;
    if q > q0 {
      MulSub(q, q0, b);
      MulAtLeast(q - q0, b);
      assert false;
    } else if q < q0 {
      MulSub(q0, q, b);
      MulAtLeast(q0 - q, b);
      assert false;
    }
  }

  lemma NextTick(t: int, rate: nat)
    ensures OnTick(t, rate) ==> OnTick(t + rate, rate)
  {
  }

  /** The fields of a session that decoding audio leaves alone. */
  predicate SameSettings(s: Session, r: Session) {
    && r.capacity == s.capacity
    && r.rate == s.rate
    && r.enabled == s.enabled
    && r.symbols == s.symbols
    && r.posted == s.posted
  }

  /** Asr::DecodeChunk: hand the buffered samples to the engine, count
      them into total_length, empty the buffer; when more than one second
      of audio has passed since the last tick, query the endpoint detector
      and advance the tick by exactly one second. */
  function DecodeChunk(s: Session, o: Oracle): (r: Session)
    ensures r.fed + r.chunk == s.fed + s.chunk && r.chunk == []
    ensures r.totalLength - s.totalLength == |r.fed| - |s.fed|
    ensures s.CadenceDue() ==>
      && r.lastOutput == s.lastOutput + s.rate
      && r.lastOutput < r.totalLength
      && r.endpointDetected == o.endpointAt(r.totalLength)
    ensures !s.CadenceDue() ==> r.lastOutput == s.lastOutput && r.endpointDetected == s.endpointDetected
    ensures SameSettings(s, r)
    ensures s.CountersValid() ==> r.CountersValid()
  {
    var total := s.totalLength + |s.chunk|;
    var r := s.(totalLength := total, fed := s.fed + s.chunk, chunk := []);
    if total - s.lastOutput > s.rate then
      NextTick(s.lastOutput, s.rate);
      r.(endpointDetected := o.endpointAt(total), lastOutput := s.lastOutput + s.rate)
    else r
  }

  function Min(a: int, b: int): int {
    if a <= b then a else b
  }

  /** The result of the copy loop: the session after it, the samples of
      the message it left unread, and how many chunks it decoded. */
  datatype Filled = Filled(session: Session, unread: seq<Sample>, decodes: nat)

  /** One pass of the copy loop: copy as many samples as fit into the
      chunk, and decode the chunk if that filled it. */
  function CopyStep(s: Session, o: Oracle, xs: seq<Sample>): (r: Filled)
    requires s.Valid() && !s.endpointDetected && |xs| > 0
    ensures r.session.Valid()
    ensures |r.unread| < |xs|
    ensures r.decodes <= 1
    ensures r.unread != [] ==> r.decodes == 1
    ensures r.session.fed + r.session.chunk + r.unread == s.fed + s.chunk + xs
    ensures |r.session.fed| == |s.fed| + (if r.decodes == 1 then s.capacity else 0)
    ensures r.session.endpointDetected ==> r.decodes == 1 && o.endpointAt(r.session.totalLength)
    ensures SameSettings(s, r.session)
  {
    var k := Min(s.capacity - |s.chunk|, |xs|);
    var s1 := s.(chunk := s.chunk + xs[..k]);
    assert xs[..k] + xs[k..] == xs;
    if |s1.chunk| == s.capacity then Filled(DecodeChunk(s1, o), xs[k..], 1)
    else Filled(s1, xs[k..], 0)
  }

  /** A copy step that decoded `d1` (zero or one) chunks followed by a loop
      that decoded `d2` handed over `d1 + d2` chunks of `cap` samples. */
  lemma FedAfter(n0: nat, n1: nat, n2: nat, d1: nat, d2: nat, cap: nat)
    requires d1 <= 1 && n1 == n0 + (if d1 == 1 then cap else 0)
    requires n2 == n1 + d2 * cap
    ensures n2 == n0 + (d1 + d2) * cap
  {
    assert (d1 + d2) * cap == d1 * cap + d2 * cap;
  }

  /** The copy loop of process_audio: while samples remain and no endpoint
      has been detected, copy as many as fit into the chunk and decode the
      chunk once it is full. */
  function Fill(s: Session, o: Oracle, xs: seq<Sample>): (r: Filled)
    requires s.Valid()
    ensures r.session.Valid()
    ensures |r.unread| <= |xs|
    ensures r.unread != [] ==> r.session.endpointDetected
    ensures s.endpointDetected ==> r == Filled(s, xs, 0)
    ensures r.session.fed + r.session.chunk + r.unread == s.fed + s.chunk + xs
    ensures |r.session.fed| == |s.fed| + r.decodes * s.capacity
    ensures r.session.endpointDetected && !s.endpointDetected ==> o.endpointAt(r.session.totalLength)
    ensures SameSettings(s, r.session)
    decreases |xs|
  {
    if |xs| == 0 || s.endpointDetected then Filled(s, xs, 0)
    else
      var step := CopyStep(s, o, xs);
      var rest := Fill(step.session, o, step.unread);
      FedAfter(|s.fed|, |step.session.fed|, |rest.session.fed|, step.decodes, rest.decodes, s.capacity);
      Filled(rest.session, rest.unread, step.decodes + rest.decodes)
  }

  /** The number of samples of the message the loop took. */
  function Taken(s: Session, o: Oracle, xs: seq<Sample>): nat
    requires s.Valid()
  {
    |xs| - |Fill(s, o, xs).unread|
  }

  /** What the loop takes is a prefix of the message and what it leaves is
      the rest: the engine and the buffer receive the message in order,
      nothing dropped or duplicated before the stopping point. */
  lemma FillTakesPrefix(s: Session, o: Oracle, xs: seq<Sample>)
    requires s.Valid()
    ensures var r := Fill(s, o, xs);
      && r.unread == xs[Taken(s, o, xs)..]
      && r.session.fed + r.session.chunk == s.fed + s.chunk + xs[..Taken(s, o, xs)]
  {
    var r := Fill(s, o, xs);
    var t := Taken(s, o, xs);
    var lhs := r.session.fed + r.session.chunk;
    assert lhs + r.unread == (s.fed + s.chunk) + xs;
    SplitAt(lhs, r.unread, s.fed + s.chunk, xs, t);
  }

  /** When the loop ends without an endpoint, it has taken every sample,
      decoded exactly (chunk_valid + n) div capacity full chunks, handed the
      engine that many chunks' worth of the stream in order, and left the
      (chunk_valid + n) mod capacity samples after them in the buffer. */
  lemma FillWithoutEndpoint(s: Session, o: Oracle, xs: seq<Sample>)
    requires s.Valid()
    requires !Fill(s, o, xs).session.endpointDetected
    ensures var r := Fill(s, o, xs);
      var stream := s.chunk + xs;
      && r.unread == []
      && r.decodes == |stream| / s.capacity
      && |r.session.chunk| == |stream| % s.capacity
      && r.session.fed == s.fed + stream[..r.decodes * s.capacity]
      && r.session.chunk == stream[r.decodes * s.capacity..]
  {
    var r := Fill(s, o, xs);
    Drains(s.fed, s.chunk, xs, r.session.fed, r.session.chunk, r.unread, r.decodes, s.capacity);
  }

  /** The arithmetic of the loop's end, on sequences alone: a loop that
      kept `fed + chunk + unread`, consumed everything, handed over `d`
      whole chunks and left less than one chunk buffered. */
  lemma Drains<T>(fed0: seq<T>, chunk0: seq<T>, xs: seq<T>, fed: seq<T>, chunk: seq<T>, unread: seq<T>, d: nat, cap: int)
    requires cap > 0 && |chunk| < cap && unread == []
    requires fed + chunk + unread == fed0 + chunk0 + xs && |fed| == |fed0| + d * cap
    ensures var stream := chunk0 + xs;
      && d == |stream| / cap && |chunk| == |stream| % cap
      && fed == fed0 + stream[..d * cap] && chunk == stream[d * cap..]
  {
    EmptyTail(fed + chunk, unread, fed0 + (chunk0 + xs));
    Drained(fed0, chunk0 + xs, fed, chunk, d, cap);
  }

  /** The samples handed over, `fed`, and the samples left in the chunk
      split the stream `fed0 + stream` after whole chunks of `cap`. */
  lemma Drained<T>(fed0: seq<T>, stream: seq<T>, fed: seq<T>, chunk: seq<T>, d: nat, cap: int)
    requires cap > 0 && |chunk| < cap
    requires fed + chunk == fed0 + stream && |fed| == |fed0| + d * cap
    ensures d == |stream| / cap && |chunk| == |stream| % cap
    ensures fed == fed0 + stream[..d * cap] && chunk == stream[d * cap..]
  {
    SplitAt(fed, chunk, fed0, stream, d * cap);
    DivModUnique(|stream|, d, |chunk|, cap);
  }

  lemma EmptyTail<T>(a: seq<T>, b: seq<T>, c: seq<T>)
    requires a + b == c && b == []
    ensures a == c
  {
    assert a + b == a;
  }

  /** Cutting one sequence written two ways, `k` items into the second. */
  lemma SplitAt<T>(a: seq<T>, b: seq<T>, c: seq<T>, d: seq<T>, k: int)
    requires a + b == c + d && |a| == |c| + k && 0 <= k
    ensures k <= |d| && a == c + d[..k] && b == d[k..]
  {
    assert a == (c + d)[..|a|];
    assert b == (c + d)[|a|..];
  }

  /** When the endpoint fires, the loop stops at a chunk boundary: the
      engine has received exactly the samples taken so far, and the rest
      of the message is never handed to it. */
  lemma {:induction false} FillStopsAtEndpoint(s: Session, o: Oracle, xs: seq<Sample>)
    requires s.Valid() && !s.endpointDetected
    requires Fill(s, o, xs).session.endpointDetected
    ensures var r := Fill(s, o, xs);
      && r.session.chunk == []
      && r.session.fed + r.unread == s.fed + s.chunk + xs
      && r.decodes >= 1
    decreases |xs|
  {
    var r := Fill(s, o, xs);
    assert r.session.fed + r.session.chunk == r.session.fed;
    var step := CopyStep(s, o, xs);
    if !step.session.endpointDetected {
      FillStopsAtEndpoint(step.session, o, step.unread);
    }
  }

  /** The reference behaviour, one sample at a time: append it, and decode
      when the chunk becomes full; after an endpoint nothing is taken. */
  function Push(s: Session, o: Oracle, x: Sample): Session {
    if s.endpointDetected then s
    else
      var s1 := s.(chunk := s.chunk + [x]);
      if |s1.chunk| == s.capacity then DecodeChunk(s1, o) else s1
  }

  function Stream(s: Session, o: Oracle, xs: seq<Sample>): Session
    decreases |xs|
  {
    if |xs| == 0 then s else Stream(Push(s, o, xs[0]), o, xs[1..])
  }

  lemma {:induction false} StreamConcat(s: Session, o: Oracle, xs: seq<Sample>, ys: seq<Sample>)
    ensures Stream(s, o, xs + ys) == Stream(Stream(s, o, xs), o, ys)
    decreases |xs|
  {
    if |xs| > 0 {
      assert (xs + ys)[1..] == xs[1..] + ys;
      StreamConcat(Push(s, o, xs[0]), o, xs[1..], ys);
    } else {
      assert xs + ys == ys;
    }
  }

  lemma {:induction false} StreamLatched(s: Session, o: Oracle, xs: seq<Sample>)
    requires s.endpointDetected
    ensures Stream(s, o, xs) == s
    decreases |xs|
  {
    if |xs| > 0 {
      StreamLatched(s, o, xs[1..]);
    }
  }

  /** A block that fits into the buffer is the same as pushing its samples
      one by one. */
  lemma {:induction false} StreamBlock(s: Session, o: Oracle, ys: seq<Sample>)
    requires !s.endpointDetected && |s.chunk| < s.capacity && |s.chunk| + |ys| <= s.capacity
    ensures var s1 := s.(chunk := s.chunk + ys);
      Stream(s, o, ys) == if |s1.chunk| == s.capacity then DecodeChunk(s1, o) else s1
    decreases |ys|
  {
    if |ys| == 0 {
      assert s.chunk + ys == s.chunk;
    } else {
      var p := s.(chunk := s.chunk + [ys[0]]);
      assert s.chunk + ys == p.chunk + ys[1..];
      if |p.chunk| < s.capacity {
        StreamBlock(p, o, ys[1..]);
      } else {
        assert ys[1..] == [];
      }
    }
  }

  /** The block copy of process_audio and the sample-by-sample reference
      reach the same session. */
  lemma {:induction false} FillIsStream(s: Session, o: Oracle, xs: seq<Sample>)
    requires s.Valid()
    ensures Fill(s, o, xs).session == Stream(s, o, xs)
    decreases |xs|
  {
    if |xs| == 0 {
    } else if s.endpointDetected {
      StreamLatched(s, o, xs);
    } else {
      var k := Min(s.capacity - |s.chunk|, |xs|);
      var step := CopyStep(s, o, xs);
      FillUnfold(s, o, xs);
      StepStreams(s, o, xs, k);
      FillIsStream(step.session, o, xs[k..]);
      StreamConcat(s, o, xs[..k], xs[k..]);
    }
  }

  lemma FillUnfold(s: Session, o: Oracle, xs: seq<Sample>)
    requires s.Valid() && !s.endpointDetected && |xs| > 0
    ensures var step := CopyStep(s, o, xs);
      Fill(s, o, xs).session == Fill(step.session, o, step.unread).session
  {
  }

  /** One copy step takes the first `k` samples, and reaches the session
      the reference reaches on them. */
  lemma StepStreams(s: Session, o: Oracle, xs: seq<Sample>, k: int)
    requires s.Valid() && !s.endpointDetected && |xs| > 0
    requires k == Min(s.capacity - |s.chunk|, |xs|)
    ensures xs[..k] + xs[k..] == xs
    ensures CopyStep(s, o, xs).unread == xs[k..]
    ensures CopyStep(s, o, xs).session == Stream(s, o, xs[..k])
  {
    StreamBlock(s, o, xs[..k]);
    assert xs[..k] + xs[k..] == xs;
  }

  /** How the audio is cut into messages does not matter: filling with two
      pieces in turn ends in the same session as filling with both at once. */
  lemma FillSplit(s: Session, o: Oracle, xs: seq<Sample>, ys: seq<Sample>)
    requires s.Valid()
    ensures Fill(Fill(s, o, xs).session, o, ys).session == Fill(s, o, xs + ys).session
  {
    var m := Fill(s, o, xs).session;
    FillIsStream(s, o, xs);
    FillIsStream(m, o, ys);
    FillIsStream(s, o, xs + ys);
    StreamConcat(s, o, xs, ys);
  }

  /** The payload finalization posts: the best transcript when the final
      relative cost is at most 8, otherwise the empty string. */
  function Payload(s: Session, o: Oracle): (r: Result<string, Fault>)
    ensures o.finalCost > CostThreshold ==> r == Ok("")
    ensures o.finalCost <= CostThreshold ==>
      match Transcript.BestTranscript(s.symbols, o.best)
      case Ok(t) => r == Ok(t)
      case Err(id) => r == Err(SymbolLookup(id))
  {
    if o.finalCost <= CostThreshold then
      match Transcript.BestTranscript(s.symbols, o.best)
      case Ok(t) => Ok(t)
      case Err(id) => Err(SymbolLookup(id))
    else Ok("")
  }

  /** process_audio: nothing when audio is disabled; otherwise run the copy
      loop over the resampled samples and, if an endpoint has been detected
      (now or earlier), post exactly one payload and stop accepting audio. */
  function ProcessAudio(s: Session, o: Oracle, xs: seq<Sample>): (r: Result<Session, Fault>)
    requires s.Valid()
    ensures !s.enabled ==> r == Ok(s)
    ensures r.Ok? ==> r.value.Valid()
    ensures r.Ok? ==> r.value.capacity == s.capacity && r.value.rate == s.rate && r.value.symbols == s.symbols
    ensures s.enabled ==>
      var f := Fill(s, o, xs);
      && (r.Err? ==>
        f.session.endpointDetected && Payload(f.session, o).Err? && r.error == Payload(f.session, o).error)
      && (r.Ok? ==>
        && r.value.fed + r.value.chunk + f.unread == s.fed + s.chunk + xs
        && r.value.endpointDetected == f.session.endpointDetected
        && r.value.enabled == !f.session.endpointDetected
        && r.value.totalLength == f.session.totalLength
        && r.value.lastOutput == f.session.lastOutput
        && (f.session.endpointDetected ==>
              Payload(f.session, o).Ok? && r.value.posted == s.posted + [Payload(f.session, o).value])
        && (!f.session.endpointDetected ==> r.value.posted == s.posted))
  {
    if !s.enabled then Ok(s)
    else
      var f := Fill(s, o, xs).session;
      if f.endpointDetected then
        var payload :- Payload(f, o);
        Ok(f.(posted := f.posted + [payload], enabled := false))
      else Ok(f)
  }

  /** Asr::ResetDecoder as far as the session fields go: an empty chunk,
      the output tick back at zero, both flags cleared. total_length, the
      settings and the logs are kept. */
  function Reset(s: Session): (r: Session)
    ensures s.Valid() ==> r.Valid()
    ensures r.ChunkValid() == 0 && !r.enabled && !r.endpointDetected
    ensures r.totalLength == s.totalLength && r.capacity == s.capacity && r.rate == s.rate && r.symbols == s.symbols
    ensures r.fed == s.fed && r.posted == s.posted
  {
    s.(chunk := [], lastOutput := 0, endpointDetected := false, enabled := false)
  }
}

=== FILE: text.dfy ===
/** Splitting text into fields and joining fields back together: the
    transcript join of kaldi-js.cc, Python's `str.split()` and
    `re.split('[ -]', ...)` in alexa_fst.py. */
module Text {

  /** No character of `s` is a separator. */
  predicate Unseparated(s: string, seps: set<char>) {
    forall i | 0 <= i < |s| :: s[i] !in seps
  }

  /** The fields of `s` between separator characters, empty fields kept, as
      `re.split` with a one-character class does: `n` separators give
      `n + 1` fields. */
  function Fields(s: string, seps: set<char>): (r: seq<string>)
    ensures |r| >= 1
    ensures forall i | 0 <= i < |r| :: Unseparated(r[i], seps)
    decreases |s|
  {
    if |s| == 0 then [""]
    else
      var rest := Fields(s[1..], seps);
      if s[0] in seps then [""] + rest
      else [[s[0]] + rest[0]] + rest[1..]
  }

  /** The fields joined with `sep` between consecutive fields and no
      trailing separator. */
  function Join(xs: seq<string>, sep: char): string
    decreases |xs|
  {
    if |xs| == 0 then ""
    else if |xs| == 1 then xs[0]
    else xs[0] + [sep] + Join(xs[1..], sep)
  }

  /** The characters Python's `str.isspace` accepts. */
  const Whitespace: set<char> :=
    {'\t', '\n', '\U{b}', '\U{c}', '\r', '\U{1c}', '\U{1d}', '\U{1e}', '\U{1f}', ' ',
     '\U{85}', '\U{a0}', '\U{1680}', '\U{2000}', '\U{2001}', '\U{2002}', '\U{2003}',
     '\U{2004}', '\U{2005}', '\U{2006}', '\U{2007}', '\U{2008}', '\U{2009}', '\U{200a}',
     '\U{2028}', '\U{2029}', '\U{202f}', '\U{205f}', '\U{3000}'}

  /** The non-empty members of `xs`, in order. */
  function NonEmpty(xs: seq<string>): (r: seq<string>)
    ensures forall i | 0 <= i < |r| :: r[i] != "" && r[i] in xs
    ensures |r| <= |xs|
    decreases |xs|
  {
    if |xs| == 0 then []
    else if xs[0] == "" then NonEmpty(xs[1..])
    else [xs[0]] + NonEmpty(xs[1..])
  }

  /** Python's `s.split()`: the maximal runs of non-whitespace characters. */
  function Words(s: string): (r: seq<string>)
    ensures forall i | 0 <= i < |r| :: r[i] != "" && Unseparated(r[i], Whitespace)
  {
    var fs := Fields(s, Whitespace);
    var r := NonEmpty(fs);
    assert forall i | 0 <= i < |r| :: r[i] in fs;
    r
  }

  lemma {:induction false} JoinCons(a: string, b: string, rest: seq<string>, sep: char)
    ensures Join([a + b] + rest, sep) == a + Join([b] + rest, sep)
  {
    if |rest| > 0 {
      assert ([a + b] + rest)[1..] == rest;
      assert ([b] + rest)[1..] == rest;
    }
  }

  /** Splitting a text on one separator and joining the fields with it gives
      the text back. */
  lemma {:induction false} JoinFields(s: string, sep: char)
    ensures Join(Fields(s, {sep}), sep) == s
    decreases |s|
  {
    if |s| > 0 {
      var rest := Fields(s[1..], {sep});
      JoinFields(s[1..], sep);
      if s[0] == sep {
        assert ([""] + rest)[1..] == rest;
        assert Join([""] + rest, sep) == "" + [sep] + Join(rest, sep);
        assert s == [s[0]] + s[1..];
      } else {
        assert rest == [rest[0]] + rest[1..];
        JoinCons([s[0]], rest[0], rest[1..], sep);
        assert s == [s[0]] + s[1..];
      }
    }
  }

  /** A text with no separator is a single field. */
  lemma {:induction false} FieldsOfUnseparated(a: string, seps: set<char>)
    requires Unseparated(a, seps)
    ensures Fields(a, seps) == [a]
    decreases |a|
  {
    if |a| > 0 {
      FieldsOfUnseparated(a[1..], seps);
      assert [a[0]] + a[1..] == a;
    }
  }

  /** A field followed by a separator splits off as the first field. */
  lemma {:induction false} FieldsOfSeparated(a: string, c: char, b: string, seps: set<char>)
    requires Unseparated(a, seps) && c in seps
    ensures Fields(a + [c] + b, seps) == [a] + Fields(b, seps)
    decreases |a|
  {
    var s := a + [c] + b;
    if |a| == 0 {
      assert s[1..] == b;
    } else {
      assert s[1..] == a[1..] + [c] + b;
      FieldsOfSeparated(a[1..], c, b, seps);
      assert [a[0]] + a[1..] == a;
    }
  }

  /** Joining separator-free fields and splitting the result gives the
      fields back. */
  lemma {:induction false} FieldsJoin(xs: seq<string>, sep: char, seps: set<char>)
    requires |xs| >= 1 && sep in seps
    requires forall i | 0 <= i < |xs| :: Unseparated(xs[i], seps)
    ensures Fields(Join(xs, sep), seps) == xs
    decreases |xs|
  {
    if |xs| == 1 {
      FieldsOfUnseparated(xs[0], seps);
    } else {
      FieldsJoin(xs[1..], sep, seps);
      FieldsOfSeparated(xs[0], sep, Join(xs[1..], sep), seps);
      assert [xs[0]] + xs[1..] == xs;
    }
  }

  /** One step of Fields: the first character either starts a new field or
      joins the first field of the rest. */
  lemma FieldsCons(ch: char, t: string, seps: set<char>)
    ensures Fields([ch] + t, seps) ==
      if ch in seps then [""] + Fields(t, seps)
      else [[ch] + Fields(t, seps)[0]] + Fields(t, seps)[1..]
  {
    assert ([ch] + t)[1..] == t;
  }

  /** Prefixing a field to the first of `front + back`, or a field before
      all of them, does not involve `back`. */
  lemma Glue(h: string, joins: bool, front: seq<string>, back: seq<string>, whole: seq<string>)
    requires |front| >= 1 && whole == front + back
    ensures joins ==> [h + whole[0]] + whole[1..] == ([h + front[0]] + front[1..]) + back
    ensures !joins ==> [h] + whole == ([h] + front) + back
  {
    assert whole[1..] == front[1..] + back;
  }

  /** A separator cuts a text in two: the fields of the whole are the
      fields before it followed by the fields after it. */
  lemma {:induction false} FieldsAppend(a: string, c: char, b: string, seps: set<char>)
    requires c in seps
    ensures Fields(a + [c] + b, seps) == Fields(a, seps) + Fields(b, seps)
    decreases |a|
  {
    var back := Fields(b, seps);
    if |a| == 0 {
      assert a + [c] + b == [c] + b;
      FieldsCons(c, b, seps);
    } else {
      var t := a[1..] + [c] + b;
      assert a + [c] + b == [a[0]] + t;
      assert a == [a[0]] + a[1..];
      FieldsAppend(a[1..], c, b, seps);
      FieldsCons(a[0], t, seps);
      FieldsCons(a[0], a[1..], seps);
      if a[0] in seps {
        Glue("", false, Fields(a[1..], seps), back, Fields(t, seps));
      } else {
        Glue([a[0]], true, Fields(a[1..], seps), back, Fields(t, seps));
      }
    }
  }

  lemma {:induction false} NonEmptyAppend(xs: seq<string>, ys: seq<string>)
    ensures NonEmpty(xs + ys) == NonEmpty(xs) + NonEmpty(ys)
    decreases |xs|
  {
    if |xs| > 0 {
      assert (xs + ys)[1..] == xs[1..] + ys;
      NonEmptyAppend(xs[1..], ys);
    } else {
      assert xs + ys == ys;
    }
  }

  /** `split()` is pinned down on every text: nothing in the empty text, a
      whitespace-free non-empty text is one word, and a whitespace character
      cuts a text into the words before it and the words after it (so runs
      of whitespace and leading or trailing whitespace add nothing). */
  lemma WordsOfEveryText(a: string, c: char, b: string)
    ensures Words("") == []
    ensures a != "" && Unseparated(a, Whitespace) ==> Words(a) == [a]
    ensures c in Whitespace ==> Words(a + [c] + b) == Words(a) + Words(b)
  {
    assert Fields("", Whitespace) == [""];
    if a != "" && Unseparated(a, Whitespace) {
      FieldsOfUnseparated(a, Whitespace);
      assert NonEmpty([a]) == [a] + NonEmpty([]);
    }
    if c in Whitespace {
      FieldsAppend(a, c, b, Whitespace);
      NonEmptyAppend(Fields(a, Whitespace), Fields(b, Whitespace));
    }
  }

  lemma {:induction false} NonEmptyIdentity(xs: seq<string>)
    requires forall i | 0 <= i < |xs| :: xs[i] != ""
    ensures NonEmpty(xs) == xs
    decreases |xs|
  {
    if |xs| > 0 {
      NonEmptyIdentity(xs[1..]);
      assert [xs[0]] + xs[1..] == xs;
    }
  }

  /** Python's `split()` undoes a space join of non-empty, whitespace-free
      words. */
  lemma WordsJoin(xs: seq<string>)
    requires |xs| >= 1
    requires forall i | 0 <= i < |xs| :: xs[i] != "" && Unseparated(xs[i], Whitespace)
    ensures Words(Join(xs, ' ')) == xs
  {
    FieldsJoin(xs, ' ', Whitespace);
    NonEmptyIdentity(xs);
  }
}

=== FILE: transcript.dfy ===
/** GetBestTranscript of kaldi-js.cc: the decoder's best path rendered as
    words through the symbol table. The lattice search itself is an
    oracle: the model receives what the decoder would report. */
module Transcript {
  import opened Results
  import Text

  type WordId = int

  /** The word symbol table (words.txt), id to symbol. */
  type SymbolTable = map<WordId, string>

  /** What the decoder reports: NumFramesDecoded, the number of states of
      the best-path lattice, and the word ids GetLinearSymbolSequence reads
      off it. */
  datatype BestPath = BestPath(framesDecoded: nat, latticeStates: nat, words: seq<WordId>)

  /** fst::SymbolTable::Find: the symbol of `id`, or "" when it is absent. */
  function Find(table: SymbolTable, id: WordId): (r: string)
    ensures id in table ==> r == table[id]
    ensures r != "" ==> id in table && r == table[id]
    ensures id !in table ==> r == ""
  {
    if id in table then table[id] else ""
  }

  /** The id has a (non-empty) symbol. */
  predicate Known(table: SymbolTable, id: WordId) {
    Find(table, id) != ""
  }

  /** The symbols of the ids, position by position. */
  function Symbols(table: SymbolTable, ids: seq<WordId>): (r: seq<string>)
    ensures |r| == |ids|
    ensures forall i | 0 <= i < |ids| :: r[i] == Find(table, ids[i])
  {
    seq(|ids|, i requires 0 <= i < |ids| => Find(table, ids[i]))
  }

  /** The rendering loop from word `i` on, `acc` holding the text written so
      far: each symbol is written, then a space unless it is the last word;
      a symbol found empty aborts with the offending id. */
  function RenderFrom(table: SymbolTable, ids: seq<WordId>, i: nat, acc: string): (r: Result<string, WordId>)
    requires i <= |ids|
    ensures r.Ok? <==> forall j | i <= j < |ids| :: Known(table, ids[j])
    ensures r.Ok? ==> r.value == acc + Text.Join(Symbols(table, ids[i..]), ' ')
    ensures r.Err? ==> exists j | i <= j < |ids| ::
      r.error == ids[j] && !Known(table, ids[j]) && forall k | i <= k < j :: Known(table, ids[k])
    decreases |ids| - i
  {
    if i == |ids| then Ok(acc)
    else
      var s := Find(table, ids[i]);
      var acc' := acc + s + (if i < |ids| - 1 then " " else "");
      if s == "" then Err(ids[i])
      else
        var r := RenderFrom(table, ids, i + 1, acc');
        RenderStep(table, ids, i, acc, acc');
        r
  }

  /** Appending the `i`-th symbol, and a space unless it is the last, is
      one step of joining the symbols from `i` on. */
  lemma RenderStep(table: SymbolTable, ids: seq<WordId>, i: nat, acc: string, acc': string)
    requires i < |ids|
    requires acc' == acc + Find(table, ids[i]) + (if i < |ids| - 1 then " " else "")
    ensures acc' + Text.Join(Symbols(table, ids[i + 1..]), ' ') == acc + Text.Join(Symbols(table, ids[i..]), ' ')
  {
    var rest := Symbols(table, ids[i + 1..]);
    assert Symbols(table, ids[i..]) == [Find(table, ids[i])] + rest;
    if |rest| > 0 {
      assert ([Find(table, ids[i])] + rest)[1..] == rest;
    }
  }

  /** GetBestTranscript: "" when nothing was decoded or the lattice is
      empty, otherwise the symbols of the best path joined by single spaces;
      a word id missing from the table is fatal (KALDI_ERR), reported here
      as the offending id. */
  function BestTranscript(table: SymbolTable, p: BestPath): (r: Result<string, WordId>)
    ensures p.framesDecoded == 0 || p.latticeStates == 0 ==> r == Ok("")
    ensures p.framesDecoded > 0 && p.latticeStates > 0 ==>
      && (r.Ok? <==> forall j | 0 <= j < |p.words| :: Known(table, p.words[j]))
      && (r.Ok? ==> r.value == Text.Join(Symbols(table, p.words), ' '))
      && (r.Err? ==> exists j | 0 <= j < |p.words| ::
            r.error == p.words[j] && !Known(table, p.words[j]) && forall k | 0 <= k < j :: Known(table, p.words[k]))
  {
    if p.framesDecoded == 0 then Ok("")
    else if p.latticeStates == 0 then Ok("")
    else
      assert p.words[0..] == p.words;
      RenderFrom(table, p.words, 0, "")
  }

  /** Splitting a transcript at its spaces recovers the symbols of the best
      path, provided the table's symbols contain no space (Kaldi symbol
      tables are whitespace-separated, so they never do). */
  lemma TranscriptFields(table: SymbolTable, p: BestPath)
    requires p.framesDecoded > 0 && p.latticeStates > 0 && |p.words| > 0
    requires forall id | id in table :: Text.Unseparated(table[id], {' '})
    requires BestTranscript(table, p).Ok?
    ensures Text.Fields(BestTranscript(table, p).value, {' '}) == Symbols(table, p.words)
  {
    var syms := Symbols(table, p.words);
    forall i | 0 <= i < |syms|
      ensures Text.Unseparated(syms[i], {' '})
    {
      assert Known(table, p.words[i]);
    }
    Text.FieldsJoin(syms, ' ', {' '});
  }
}
